=== FILE: README.md ===
# libudjatsysinfo — a Dafny model of the counter, rate and classification core

This project models the logic of the udjat system-information module. That
logic turns kernel counters into per-interval metrics and classifies each
metric against an ordered list of threshold states.

- **CPU tick counters** (`Udjat::System::Stat`). The counter kinds, lookup
  by name ignoring case, `total`/`getUsage`/`getRunning`, subtraction modulo
  2^64 and `std::to_string(Type)`.
- **The "system-stat" agent.** Per-category tick deltas, with a decrease
  clamped to zero.
- **Disk counter records** (`Udjat::Disk::Stat`).
  - The `next` tokenizer and `parse` over /proc/diskstats lines.
  - `Stat(name)`, which strips "/dev/" or aggregates the physical disks.
  - `operator+=` and the physical/logical predicates.
- **Disk speed bookkeeping** (`Udjat::Disk::Stat::Data`, `Udjat::Disk::Unit`)
  and the disk speed agent, with its unit table, totals and refresh.
- **Threshold classification.** `SysInfo::Agent::set` and `SysInfo::Percent`
  pick the first matching state. They report a change only when that state is
  a different object.
- **The value producers:**
  - load average (`SysUsage::CPULoad`);
  - CPU average over cores (`SysInfo::CPUAverage`);
  - swap use;
  - memory use, with its /proc/meminfo value scaler.
- **The uptime agent.** Seconds since boot in words, and its state choice.

## Modelling conventions

- **External inputs are parameters.** Everything the program reads from the
  system is passed in: /proc and /sys texts as strings or lines, the
  `getloadavg` triple, the current time in milliseconds, `sysinfo` success and
  the disk block size.
- **`compare` is a parameter.** `State<T>::compare` belongs to a library that
  is not part of this model, so it is a function parameter
  `compare(from, to, value)`. The half-open range `Classifier.HalfOpen` is
  used only in example lemmas, which say that they assume it.
- **State identity.** A state object's identity is its position in the
  agent's list. The object an agent starts with is `None`, outside the list.
- **Numbers.**
  - Rates and percentages are `real`.
  - `unsigned long` arithmetic is modulo 2^64 (`Word.Sub64`); `unsigned int`
    arithmetic is modulo 2^32 (`Word.Sub32`, `DiskData.AddTime`).
  - The `unsigned short` major and minor numbers truncate (`Word.Trunc16`).
  - A `%lu` conversion saturates at 2^64-1 and is then stored in its field's
    width (`DiskStat.Store`).
- **Wrapping and clamping.**
  - `System::Stat::operator-=` wraps modulo 2^64. Only the "system-stat" agent
    clamps a decrease to zero.
  - Disk time deltas are `unsigned int` differences, so a time counter that
    went back still yields a positive time (`DiskData.TimeWrapStillCounts`).
- **Parsing.** The disk line parsers scan the text of each line with `next`,
  `atoi` and `sscanf`; lines are not split into fields first.

## Model

| member | source | states |
|---|---|---|
| CpuStat.Ordinal | src/include/udjat/tools/system/stat.h:32-45 | The enumerators are 0..10, and TOTAL alone is 10, after the internal counters |
| CpuStat.FromOrdinal | src/library/os/linux/sysstats.cc:120-124 | The cast of a table index back to a type is the inverse of the enumerator's value |
| CpuStat.TypeFactory | src/library/os/linux/sysstats.cc:118-131 | The type found is the first table entry equal to the name ignoring case; the lookup fails exactly when no entry matches |
| CpuStat.TypeNameFound | src/library/os/linux/sysstats.cc:32-44 | Looking up the table name of every type yields that type |
| CpuStat.TypeNamesRoundTrip | src/library/os/linux/sysstats.cc:118-131 | Name lookup inverts the name table for 0..10, and "undefined" names no type |
| CpuStat.UndefinedIsNoType | src/library/os/linux/sysstats.cc:126-130 | The fallback text "undefined" is refused by the lookup |
| CpuStat.TypeFactoryIgnoresCase | src/library/os/linux/sysstats.cc:120-124 | A name and its lower-case form select the same type, or both fail |
| CpuStat.IdleUpperCase | src/library/os/linux/sysstats.cc:120-124 | "IDLE" selects the idle counter |
| CpuStat.TotalFallbackUnreachable | src/library/os/linux/sysstats.cc:126-128 | The separate "total" check after the table scan can never succeed, since the scan already finds "total" |
| CpuStat.FieldByName | src/library/os/linux/sysstats.cc:137-139 | Reading by name succeeds exactly when some table name equals the name ignoring case, and gives the counter of the first such entry |
| CpuStat.FieldByTableName | src/library/os/linux/sysstats.cc:141-181 | Reading by each table name yields exactly that counter, and "total" yields `total()` |
| CpuStat.Total | src/library/os/linux/sysstats.cc:183-185 | `total()` is the running counters plus idle, modulo 2^64 |
| CpuStat.TotalIsSumOfFields | src/library/os/linux/sysstats.cc:183-185 | `total()` is the exact sum of the ten counters modulo 2^64, and `operator[](TOTAL)` equals it |
| CpuStat.UsageAndRunning | src/library/os/linux/sysstats.cc:187-193 | `getUsage()` equals `total()` for every record; running plus idle is the total modulo 2^64 |
| CpuStat.DefaultIsZero | src/include/udjat/tools/system/stat.h:51-60 | Every counter of a default record is 0 |
| CpuStat.Subtract | src/library/os/linux/sysstats.cc:195-209 | Every counter is subtracted modulo 2^64, with no clamping |
| CpuStat.SubtractTotal | src/library/os/linux/sysstats.cc:195-209 | The total of a difference is the difference of the totals modulo 2^64 |
| CpuStat.TypeToString | src/library/os/linux/sysstats.cc:223-231 | Corrected guard: the name of types 0..10 is found again by the lookup; larger values print "undefined", which no lookup accepts |
| CpuStat.TypeToStringOffByOne | src/library/os/linux/sysstats.cc:225 | As written, value 11 passes the guard and indexes past the table; every other value agrees with the corrected guard |
| CpuStat.TypeToStringAsWritten | src/library/os/linux/sysstats.cc:223-231 | As written, types 0..10 print a name the lookup maps back to the type, 11 reads past the table (no text), and larger values print "undefined", which names no type |
| SysStatAgent.New | src/module/sysstat.cc:95-110 | A zero update interval is refused; otherwise the seven values start at 0 and the reading is saved |
| SysStatAgent.ClampedDelta | src/module/sysstat.cc:119-125 | The delta completes the saved value to the current one, or is 0 when the counter went down; it never exceeds the current value |
| SysStatAgent.Refresh | src/module/sysstat.cc:112-132 | Each delta is the clamped difference of its category, the raw reading is saved even after a clamp, the values are untouched, and the result is always true |
| SysStatAgent.ClampVersusWrap | src/module/sysstat.cc:119-125 | Where a counter went down, the clamp gives 0 while subtraction modulo 2^64 gives a positive delta; otherwise the two agree |
| DiskStat.PhysicalLogicalExclusive | src/include/udjat/tools/disk/stat.h:83-90 | Physical and logical exclude each other, and together they cover exactly the records with non-zero major; the default record is neither |
| DiskStat.SkipWord | src/library/os/linux/diskstats.cc:36-43 | The first loop of `next` stops at the first blank, or fails when none remains |
| DiskStat.SkipBlanks | src/library/os/linux/diskstats.cc:45-52 | The second loop of `next` stops at the first non-blank, or fails when none remains |
| DiskStat.Next | src/library/os/linux/diskstats.cc:34-56 | The result is the first token start strictly after the position; the call fails exactly when no token starts later |
| DiskStat.Store | src/library/os/linux/diskstats.cc:75-96 | A converted value that fits its field's width is stored unchanged |
| DiskStat.Parse | src/library/os/linux/diskstats.cc:58-102 | `parse` fails only with the /proc/diskstats format error; a parsed name is non-empty, starts with a non-blank and is shorter than the line (fewer than fifteen counters failing is DiskStat.ParseShortLine) |
| DiskStat.ParseShortLine | src/library/os/linux/diskstats.cc:96-99 | A line with the three leading tokens and fewer than fifteen counters fails with the /proc/diskstats format error |
| DiskStat.ParseLine | src/library/os/linux/diskstats.cc:58-102 | On a line of eighteen tokens, `parse` yields the decimal major, minor and counters and the name token |
| DiskStat.ParseRender | src/library/os/linux/diskstats.cc:58-102 | Parsing a record written in /proc/diskstats layout gives back the same record |
| DiskStat.NameSlice | src/library/os/linux/diskstats.cc:68-72 | The slice from token 2 to one before token 3 is token 2 when one blank separates them |
| DiskStat.NameSliceBlanks | src/library/os/linux/diskstats.cc:68-72 | After a name token followed by g blanks, the cut name is the token plus g - 1 blanks, so it equals the token exactly when one blank separates it from the next token |
| DiskStat.Get | src/library/os/linux/diskstats.cc:104-120 | One record per line on success; failure needs at least one line |
| DiskStat.GetParsesEachLine | src/library/os/linux/diskstats.cc:104-120 | Record i is the parse of line i, and `get` fails exactly when some line does not parse |
| DiskStat.StripDev | src/library/os/linux/diskstats.cc:126-128 | A leading "/dev/", in any case, is removed; any other name is kept |
| DiskStat.StripDevExamples | src/library/os/linux/diskstats.cc:126-128 | "/dev/x" and "/DEV/x" both become "x" |
| DiskStat.FromName | src/library/os/linux/diskstats.cc:122-178 | An empty name gives the aggregate of all records, or the failure of reading them; a named device gets the stripped name, is neither physical nor logical, and fails only with a format error naming its /sys/block file or the /proc/diskstats one |
| DiskStat.Add | src/library/os/linux/diskstats.cc:180-205 | Counters add field by field in their own width; major, minor and name are cleared |
| DiskStat.Aggregate | src/library/os/linux/diskstats.cc:162-176 | The aggregate keeps major 0, minor 0 and an empty name, so it is neither physical nor logical |
| DiskStat.AggregateSumsPhysical | src/library/os/linux/diskstats.cc:162-176 | Each aggregate counter is the sum over exactly the physical records, in its width |
| DiskStat.AggregateIgnoresOthers | src/library/os/linux/diskstats.cc:168-174 | Records that are not physical disks do not change the aggregate |
| DiskStat.PhysicalOnlyIdempotent | src/library/os/linux/diskstats.cc:170 | Filtering for physical disks twice is filtering once |
| DiskData.UnitGet | src/library/diskstat.cc:41-51 | The unit is the first whose symbol starts with the name's first letter; an empty name or no match fails with "Invalid unit '<name>'" |
| DiskData.UnitGetBySymbol | src/library/diskstat.cc:41-47 | Every unit is found by its own symbol followed by anything |
| DiskData.UnitGetDefaults | src/include/udjat/tools/disk/stat.h:38-39 | Both default names select megabytes, and "K" selects 1024 |
| DiskData.UnitGetRefused | src/library/diskstat.cc:49 | "", "m" and "kb" are refused, and the message names the unit |
| DiskData.Speed | src/library/diskstat.cc:148-182 | Speed is never negative; it is positive exactly when bytes and time are both positive, and it then times the seconds gives the bytes |
| DiskData.FromStat | src/library/diskstat.cc:104-114 | No speed yet; the saved bytes are blocks times block size, and the saved times are the record's |
| DiskData.Reset | src/library/diskstat.cc:53-65 | All speeds are zero, and the saved values are taken from the record whatever `data` held |
| DiskData.ResetIsFromStat | src/library/diskstat.cc:53-65 | `reset` equals the `Data(stat)` constructor, and resetting from a default record gives the default data |
| DiskData.Compute | src/library/diskstat.cc:67-102 | The saved values become the record's, and the speeds are never negative |
| DiskData.ComputeIsUpdate | src/library/diskstat.cc:67-102 | `compute` is `update` against `Data(stat)` |
| DiskData.AddData | src/library/diskstat.cc:133-146 | Every field is added: speeds and bytes exactly, times in `unsigned int` |
| DiskData.AddStat | src/library/diskstat.cc:116-131 | The record's bytes are added to the saved bytes, and the speeds are unchanged |
| DiskData.AddStatIsAddData | src/library/diskstat.cc:116-146 | Adding a record is adding its `Data(stat)` |
| DiskData.AddDataMonoid | src/library/diskstat.cc:133-146 | Addition is commutative and associative, with the default data as unit |
| DiskData.AddTime | src/library/diskstat.cc:138-144 | `unsigned int` addition wraps once past 2^32 |
| DiskData.Update | src/library/diskstat.cc:148-182 | The saved values become the argument's on every branch; each speed is positive exactly when both its byte and time deltas are non-zero with more bytes |
| DiskData.UpdateRecoversDelta | src/library/diskstat.cc:151-172 | Speed times elapsed seconds gives back the byte delta, and a second update with the same data gives zero speeds |
| DiskData.TimeWrapStillCounts | src/library/diskstat.cc:152-153 | A time counter that went back wraps to a positive delta, so the speed is still positive |
| DiskAgent.FirstSelected | src/module/diskstat.cc:92-98 | The selection loop takes the first unit passing its test, or none when no unit passes |
| DiskAgent.SelectUnitAsWritten | src/module/diskstat.cc:92-98 | The loop as written: a unit other than bytes is taken only when it passes the test and no earlier unit does |
| DiskAgent.FirstSelectedAsWritten | src/module/diskstat.cc:92-98 | The as-written test is first passed by bytes for every name but "B/s", and by the first kilobyte row for "B/s" |
| DiskAgent.SelectUnitAsWrittenOutcome | src/module/diskstat.cc:87-98 | As written, every name selects bytes, except "B/s" in any case, which selects the first kilobyte row; the default "MB" selects bytes where the corrected test selects megabytes |
| DiskAgent.SelectUnit | src/module/diskstat.cc:87-98 | Corrected test: the first unit named by its symbol or label, else bytes |
| DiskAgent.SelectUnitByName | src/module/diskstat.cc:33-43 | Every unit is selected by its own symbol and label (the repeated kilobyte row by the first), and the default selects megabytes |
| DiskAgent.Totals | src/module/diskstat.cc:117-125 | The byte totals are never negative |
| DiskAgent.TotalsAppend | src/module/diskstat.cc:149-159 | Totals add up over a split of the device list |
| DiskAgent.TotalsPhysicalOnly | src/module/diskstat.cc:151-159 | Only physical disks contribute to the totals |
| DiskAgent.New | src/module/diskstat.cc:84-127 | A zero update interval is refused; otherwise the time and the totals are recorded with no speed yet, and the unit is the one the loop picks as written: kilobytes for "B/s", bytes for every other name |
| DiskAgent.Rate | src/module/diskstat.cc:163-173 | The speed is positive exactly when something was saved and the total grew, and it then times the elapsed time gives the byte delta; never negative |
| DiskAgent.Refresh | src/module/diskstat.cc:138-185 | With zero elapsed milliseconds, no update and no change; otherwise the new time and totals are saved, the unit is kept, and true is returned |
| DiskAgent.RefreshSpeeds | src/module/diskstat.cc:163-173 | After a refresh, each speed is positive exactly when the saved total was non-zero and grew, and it equals the byte delta per second |
| DiskAgent.RefreshTwice | src/module/diskstat.cc:140-147 | A second refresh at the same moment reports nothing; one with the same totals reports zero speed |
| Classifier.FirstMatch | src/module/agent.cc:70-72 | The first state from the index on whose range holds the value; none exactly when no state holds it |
| Classifier.Set | src/module/agent.cc:67-94 | The active state becomes the first match, with "changed" exactly when it is a different object; with no match nothing is touched; the value is returned unchanged |
| Classifier.FindState | src/module/agent.cc:63-65 | The active state, which is one of the agent's states, or the initial object |
| Classifier.SetIdempotent | src/module/agent.cc:74-85 | Classifying the same value again keeps the state and reports no change; the result does not depend on the previous active state |
| Classifier.SetFromInitial | src/module/percent.cc:26-28 | Starting from the initial object, a first match always reports a change |
| Classifier.ChangeIsByIdentity | src/module/agent.cc:74-78 | Two different entries with identical contents still count as a change |
| Percent.FindState | src/module/percent.cc:26-35 | "Undefined" until a value is classified, then the active state |
| Percent.Ranges | src/module/percent.cc:44-61 | One state per description, with its upper bound and texts; the first starts at the given bound |
| Percent.RangesContiguous | src/module/percent.cc:44-61 | Each later range starts at the previous upper bound |
| Percent.Load | src/module/percent.cc:37-63 | Nothing happens when states exist; otherwise the states are the ranges from 0 |
| Percent.Get | src/module/percent.cc:65-86 | The classification of `get` is that of `SysInfo::Agent::set`, and the value is passed through |
| Percent.FirstClassificationChanges | src/module/percent.cc:26-28 | A freshly loaded agent reports a change at its first classifiable value, after which its state is in the list |
| LoadAverage.Setup | src/module/loadavg.cc:38-80 | Minutes 1, 5 and 15 select the matching period; anything else fails with the period message |
| LoadAverage.SetupPeriods | src/module/loadavg.cc:69-78 | 1, 5 and 15 give 0, 1 and 2, and 0, 10 and 60 fail |
| LoadAverage.DefaultStatesContiguous | src/module/loadavg.cc:94-127 | The defaults run from 0 to 100 without gaps, from ready to critical |
| LoadAverage.New | src/module/loadavg.cc:31-36 | The constructor fails exactly on a bad period; otherwise the default states apply with nothing active |
| LoadAverage.Get | src/module/loadavg.cc:214-245 | A failed `getloadavg` is an error; otherwise the value is the selected average times 100, classified as `set` does |
| LoadAverage.FindState | src/module/loadavg.cc:27-29 | The active state, if any |
| LoadAverage.AppendState | src/module/loadavg.cc:156-158 | Adding a state always fails with "Not implemented" |
| LoadAverage.DefaultClassification | src/module/loadavg.cc:94-127 | Under half-open ranges: 25% is "good", exactly 50% is "gt50" with a change, and 150% matches nothing, so nothing is signalled |
| LoadAverage.DefaultLowLoad | src/module/loadavg.cc:94-102 | Under half-open ranges, a load of 0.25 is 25%, classified "good" |
| LoadAverage.DefaultHalfLoad | src/module/loadavg.cc:103-110 | Under half-open ranges, 0.5 is exactly 50%, classified "gt50" |
| LoadAverage.DefaultOverload | src/module/loadavg.cc:220 | Without clamping, a load of 1.5 is 150%, which no default state holds |
| CpuAverage.ProcessorLinesBounds | src/module/cpuaverage.cc:55-59 | Every line is counted exactly when each is a processor line; none is counted exactly when none is |
| CpuAverage.CountCores | src/module/cpuaverage.cc:52-60 | The loop counts the lines whose first nine characters are "processor" in any case |
| CpuAverage.New | src/module/cpuaverage.cc:44-110 | The cores are counted, and the constructor fails exactly on a bad period |
| CpuAverage.Percentage | src/module/cpuaverage.cc:232-236 | The average times 100 over the cores, and exactly 100 when it would exceed 100 |
| CpuAverage.Get | src/module/cpuaverage.cc:226-238 | A failed `getloadavg` is an error; otherwise the clamped percentage goes through `set` |
| CpuAverage.FourCores | src/module/cpuaverage.cc:232-238 | Under half-open ranges, on four cores a load of 2 is 50% ("gt50"), and any load of 4 or more is clamped to 100, which no default state holds |
| SwapUsed.DefaultStatesContiguous | src/module/swapused.cc:50-84 | The defaults run from 0 to 100 without gaps; the first two share the name "low" but are different states |
| SwapUsed.UsedPercent | src/module/swapused.cc:109-113 | Used swap times 100 over the total; between 0 and 100 when free is within the total; 0 exactly when all is free |
| SwapUsed.Get | src/module/swapused.cc:105-114 | The used percentage satisfies used times total equals (total minus free) times 100, and its classification is exactly `set` on that value: the states are kept and nothing changes only when no state holds it |
| SwapUsed.LowToLowIsAChange | src/module/swapused.cc:51-66 | Going from 5% to 50% moves between the two "low" states and reports a change |
| MemUsed.ScaleFrom | src/module/memused.cc:103-111 | The scale is 1, 1024 or 1048576, and 1 when no 'k' or 'M' follows |
| MemUsed.ScaleFromFirst | src/module/memused.cc:103-111 | The first unit letter before the terminator wins: 1024 needs a 'k' with no 'M' before it, 1048576 an 'M' with no 'k' before it |
| MemUsed.Scaled | src/module/memused.cc:93-114 | Text without a number, or with the number 0, scales to 0 |
| MemUsed.ScaledValue | src/module/memused.cc:93-114 | Blanks, a decimal number and a suffix read back as the number times the suffix's scale, modulo 2^64 |
| MemUsed.SuffixScales | src/module/memused.cc:103-111 | " kB" and " MB" scale; "KB", "GB" and nothing do not |
| MemUsed.KilobyteValue | src/module/memused.cc:104-106 | A "<n> kB" value is n times 1024 |
| MemUsed.UsedPercent | src/module/memused.cc:152-163 | The unavailable share in percent; between 0 and 100 when the available memory is within the total |
| MemUsed.MeminfoPercent | src/module/memused.cc:154-163 | From the two value texts, the result times the scaled total is (total - available) x 100, and it lies between 0 and 100 when the available memory does not exceed the total |
| MemUsed.New | src/module/memused.cc:167-172 | The definition's states, or the built-in ranges when it has none; nothing is active |
| MemUsed.Get | src/module/memused.cc:119-163 | The used percentage of the total is classified exactly as `set` does: a matching state becomes active, and a change is reported only when it differs from the previous one |
| MemUsed.InternalClassification | src/module/memused.cc:69-91 | The built-in ranges are [0,80), [80,90) and [90,100); 85% is "medium" |
| Uptime.TemplateTexts | src/module/uptime.cc:109-120 | The template table spells the source's seven format strings |
| Uptime.Decompose | src/module/uptime.cc:103-105 | The days, hours (under 24) and minutes (under 60) account for the uptime up to under a minute |
| Uptime.Key | src/module/uptime.cc:107 | The key is at most 7, and 0 exactly when all three parts are 0 |
| Uptime.FindTemplate | src/module/uptime.cc:139-143 | The first template with the key, or none exactly when no template has it |
| Uptime.FillRender | src/module/uptime.cc:145-150 | Replacing each tag's first occurrence in a well-formed template puts every value in its place |
| Uptime.ToString | src/module/uptime.cc:95-158 | Under a minute the text is "Less than one minute"; from one minute on it lists the non-zero days, hours and minutes, plural above one, joined by ", " and " and " |
| Uptime.TemplateWording | src/module/uptime.cc:103-155 | Every non-zero key finds its template, and filling it gives the reference wording |
| Uptime.ExampleOneOfEach | src/module/uptime.cc:103-155 | 90061 seconds read "1 day, 1 hour and 1 minute" |
| Uptime.ExampleNoDays | src/module/uptime.cc:103-155 | 7260 seconds read "2 hours and 1 minute" |
| Uptime.StateFromValue | src/module/uptime.cc:52-68 | A failed `sysinfo` is an error; otherwise the first state holding the uptime, or the default when none holds it |
| Uptime.StateFromValueIsSet | src/module/uptime.cc:61-64 | The chosen state is the one `set` would make active |
| Uptime.AppendState | src/module/uptime.cc:80-82 | The new state goes last, and the earlier ones keep their order |
| Uptime.AppendKeepsChoice | src/module/uptime.cc:61-64 | Appending a state never changes a choice already made |
| Uptime.Refresh | src/module/uptime.cc:84-88 | Fails exactly when `sysinfo` fails; otherwise always reports an update |

## Left out

- File access and system calls are parameters. This covers /proc/stat, /proc/diskstats, /sys/block/*/stat, /proc/meminfo, /proc/cpuinfo, `getloadavg`, `gettimeofday` and `sysinfo`.
- `getBlockSize` uses the `BLKSSZGET` ioctl; the block size is a parameter of each device.
- `State<T>::compare`, XML state construction and attribute loading belong to libudjat and are not shown. `compare` is a parameter, and the unit name and update interval come in as values.
- The factory registration, the main-loop controller, icons, labels, JSON output and the `setprecision` text of the percentage agents' `to_string` are framework output with no logic to model.
- The disk agent's `stat-type` attribute (it only picks the label), its `get` (which leaves the value untouched) and its `to_string` (a time stamp): none of them uses the computed speeds.
- The CPU usage and system time agents and the declaration-only headers hold no logic; they are not part of this model.
- IEEE float rounding and the `(float)`/`(double)` casts: rates and percentages are `real`.
- Concurrency: a refresh is one atomic step.
- Console logging: all console output is left out, since it is output only. This covers the `msec=` line of the disk agent's refresh (src/module/diskstat.cc:143), the "Using default states" messages (src/module/percent.cc:42, src/module/swapused.cc:86, src/module/loadavg.cc:129, src/module/cpuaverage.cc:159), the core count (src/module/cpuaverage.cc:62), the controller's start and stop messages, and the lines printed only in DEBUG builds.
- DiskAgent.New: a failing `gettimeofday` (src/module/diskstat.cc:75-76), an unreadable /proc/diskstats and a failing `getBlockSize` (117-125) throw in the source; the model takes the time and the devices as already read.
- DiskAgent.Refresh: the same clock, /proc/diskstats and `getBlockSize` failures (138-159) are not modelled; the time and the devices are inputs.
- DiskStat.Readable: every line must be non-empty. On an empty line `next` tests the character after the terminator (src/library/os/linux/diskstats.cc:36-41), which is undefined behaviour, so DiskStat.Parse, DiskStat.Get and DiskStat.FromName exclude it.
- LoadAverage.Get: requires a successful sample to hold three averages. The source only checks `getloadavg` for a negative result (src/module/loadavg.cc:214-216); fewer than three filled averages are not modelled.
- CpuAverage.Get: requires three averages in a successful sample, for the same reason (src/module/cpuaverage.cc:226-230).
- SwapUsed.Get: takes the free and total swap as numbers already converted; the `to_bytes` conversion of the /proc/meminfo entries (src/module/swapused.cc:109-110) is not modelled.
- Uptime.ToString: takes the uptime as an argument, so the exception thrown by a failing `sysinfo` inside `to_string` (src/module/uptime.cc:43-45, 97) is not modelled here; Uptime.Refresh models that failure.
- DiskStat.Atoi: signs and leading blanks are not modelled; the counters are decimal digit runs.
- DiskStat.ScanCounters: `sscanf` is modelled as decimal conversions separated by blanks. Signs, `0x` prefixes and the locale are not modelled.
- MemUsed.Scaled: `strtoull` with base 0 is modelled as decimal only. Octal and hexadecimal prefixes and a sign are not modelled.
- CpuAverage.Percentage: requires at least one core, because the source divides by the core count without checking it.
- CpuAverage.Get: requires at least one core, for the same reason.
- SwapUsed.UsedPercent: requires a non-zero total, because the source divides by it without checking.
- SwapUsed.Get: requires a non-zero total, for the same reason.
- MemUsed.UsedPercent: requires a non-zero total, because the source divides by it without checking.
- MemUsed.MeminfoPercent: requires a non-zero scaled total, for the same reason.
- MemUsed.Get: requires a non-zero total, for the same reason.

## Findings

| source | as written | input that shows it | evidently intended | confidence | as-written member | corrected member |
|---|---|---|---|---|---|---|
| src/library/os/linux/sysstats.cc:225 | `type > 11` lets type 11 through to `typenames[11]`, one past the eleven-entry table | type 11 | `type >= 11`, so that 11 prints "undefined" | not executed | CpuStat.TypeToStringOffByOne | CpuStat.TypeToString |
| src/module/diskstat.cc:94 | `strcasecmp(unit, units[ix].label)` without `== 0` is true for every label that differs, so the first row (bytes) is almost always taken | "MB" selects bytes, not megabytes | `strcasecmp(unit, units[ix].label) == 0` | not executed | DiskAgent.SelectUnitAsWrittenOutcome | DiskAgent.SelectUnitByName |

=== FILE: classifier.dfy ===
/** Threshold classification shared by the system agents: an ordered list of
    states, the first one whose range holds the value becomes active, and the
    agent reports a change only when that is a different state object.

    A state object's identity is its position in the agent's list; the initial
    active state (`None`) is an object outside the list. */
module Classifier {
  import opened Wrappers

  datatype Level = Unimportant | Ready | Warning | Error | Critical

  /** `Udjat::State<T>`: a named range with its alert level and texts. */
  datatype State<T> = State(name: string, from: T, to: T, level: Level, summary: string, body: string)

  /** `State<T>::compare` belongs to a library outside this model; it is a
      parameter `compare(from, to, value)` everywhere. */
  predicate Holds<T>(compare: (T, T, T) -> bool, st: State<T>, value: T) {
    compare(st.from, st.to, value)
  }

  /** One instantiation of `compare`, used only where a lemma says it assumes it:
      the half-open range [from, to). */
  predicate HalfOpen(from: real, to: real, value: real) {
    from <= value < to
  }

  /** The first state from `ix` on whose range holds `value`. */
  function FirstMatch<T>(states: seq<State<T>>, compare: (T, T, T) -> bool, value: T, ix: nat): (r: Option<nat>)
    requires ix <= |states|
    ensures r.Some? ==> ix <= r.value < |states| && Holds(compare, states[r.value], value)
    ensures r.Some? ==> forall k | ix <= k < r.value :: !Holds(compare, states[k], value)
    ensures r.None? <==> forall k | ix <= k < |states| :: !Holds(compare, states[k], value)
    decreases |states| - ix
  {
    if ix == |states| then None
    else if Holds(compare, states[ix], value) then Some(ix)
    else FirstMatch(states, compare, value, ix + 1)
  }

  /** What a classification step tells the framework: nothing at all, or an
      update with its changed flag. */
  datatype Signal = Untouched | Updated(changed: bool)

  /** The states of an agent and which of them is active. */
  datatype Agent<T> = Agent(states: seq<State<T>>, active: Option<nat>)

  predicate Valid<T>(a: Agent<T>) {
    a.active.Some? ==> a.active.value < |a.states|
  }

  /** `SysInfo::Agent::set(value)`: make the first matching state active,
      signalling a change only when it is a different object; with no match,
      touch nothing. The value itself is passed through. */
  function Set<T>(a: Agent<T>, compare: (T, T, T) -> bool, value: T): (r: (Agent<T>, Signal, T))
    requires Valid(a)
    ensures Valid(r.0) && r.0.states == a.states && r.2 == value
    ensures r.1 == Untouched <==> forall k | 0 <= k < |a.states| :: !Holds(compare, a.states[k], value)
    ensures r.1 == Untouched ==> r.0 == a
    ensures r.1.Updated? ==> r.0.active.Some? && Holds(compare, a.states[r.0.active.value], value)
    ensures r.1.Updated? ==> forall k | 0 <= k < r.0.active.value :: !Holds(compare, a.states[k], value)
    ensures r.1.Updated? ==> (r.1.changed <==> r.0.active != a.active)
  {
    match FirstMatch(a.states, compare, value, 0)
    case None => (a, Untouched, value)
    case Some(m) =>
      if a.active != Some(m) then (Agent(a.states, Some(m)), Updated(true), value)
      else (a, Updated(false), value)
  }

  /** `find_state`: the active state, `None` for the object the agent started
      with. */
  function FindState<T>(a: Agent<T>): (r: Option<State<T>>)
    requires Valid(a)
    ensures r.Some? <==> a.active.Some?
    ensures r.Some? ==> r.value in a.states
    ensures r.Some? ==> r.value == a.states[a.active.value]
  {
    match a.active
    case None => None
    case Some(i) => Some(a.states[i])
  }

  /** Classifying the same value again keeps the state and reports no change;
      the result does not depend on which state was active before. */
  lemma SetIdempotent<T>(a: Agent<T>, b: Agent<T>, compare: (T, T, T) -> bool, value: T)
    requires Valid(a) && Valid(b) && a.states == b.states
    ensures var r := Set(a, compare, value);
            Set(r.0, compare, value).0 == r.0 &&
            Set(r.0, compare, value).1 == (if r.1 == Untouched then Untouched else Updated(false))
    ensures Set(a, compare, value).1.Updated? ==> Set(a, compare, value).0 == Set(b, compare, value).0
  {
  }

  /** Starting from the object outside the list, the first match always reports
      a change. */
  lemma SetFromInitial<T>(states: seq<State<T>>, compare: (T, T, T) -> bool, value: T, k: nat)
    requires k < |states| && Holds(compare, states[k], value)
    ensures Set(Agent(states, None), compare, value).1 == Updated(true)
  {
  }

  /** Change is decided by identity: two different entries with identical
      contents still count as a change. */
  lemma ChangeIsByIdentity<T>(st: State<T>, compare: (T, T, T) -> bool, value: T)
    requires Holds(compare, st, value)
    ensures var a := Agent([st, st], Some(1));
            Set(a, compare, value).1 == Updated(true) && Set(a, compare, value).0.active == Some(0)
  {
  }
}

=== FILE: cpu_average.dfy ===
/** CPU average agent (`SysInfo::CPUAverage`): a load average as a percentage
    of the available cores, clamped at 100 and classified with the default
    load states. */
module CpuAverage {
  import opened Wrappers
  import opened Word
  import opened Text
  import opened Classifier
  import LoadAverage

  /** A /proc/cpuinfo line that opens a processor entry. */
  predicate IsProcessorLine(line: string) {
    HasPrefixIgnoreCase(line, "processor")
  }

  /** Number of processor lines. */
  function ProcessorLines(lines: seq<string>): (n: nat)
    ensures n <= |lines|
  {
    if |lines| == 0 then 0
    else (if IsProcessorLine(lines[0]) then 1 else 0) + ProcessorLines(lines[1..])
  }

  lemma {:induction false} ProcessorLinesAppend(a: seq<string>, b: seq<string>)
    ensures ProcessorLines(a + b) == ProcessorLines(a) + ProcessorLines(b)
  {
    if |a| > 0 {
      assert (a + b)[1..] == a[1..] + b;
      ProcessorLinesAppend(a[1..], b);
    } else {
      assert a + b == b;
    }
  }

  /** Every line counts exactly when it is a processor line. */
  lemma {:induction false} ProcessorLinesBounds(lines: seq<string>)
    ensures ProcessorLines(lines) == |lines| <==> forall i | 0 <= i < |lines| :: IsProcessorLine(lines[i])
    ensures ProcessorLines(lines) == 0 <==> forall i | 0 <= i < |lines| :: !IsProcessorLine(lines[i])
  {
    if |lines| > 0 {
      ProcessorLinesBounds(lines[1..]);
      assert forall i | 1 <= i < |lines| :: lines[1..][i - 1] == lines[i];
    }
  }

  /** The core count of `setup`: one per line starting with "processor",
      ignoring case. */
  method CountCores(lines: seq<string>) returns (cores: nat)
    ensures cores == ProcessorLines(lines)
  {
    cores := 0;
    var i := 0;
    while i < |lines|
      invariant i <= |lines|
      invariant cores == ProcessorLines(lines[..i])
    {
      ProcessorLinesAppend(lines[..i], [lines[i]]);
      assert lines[..i + 1] == lines[..i] + [lines[i]];
      if IsProcessorLine(lines[i]) {
        cores := cores + 1;
      }
      i := i + 1;
    }
    assert lines[..i] == lines;
  }

  /** The agent: number of cores, which average, and the classification state. */
  datatype Average = Average(cores: nat, period: nat, agent: Agent<real>)

  predicate ValidAverage(a: Average) {
    a.period < |LoadAverage.Periods| && Valid(a.agent)
  }

  /** The constructor: count the cores, select the period as the load agent
      does, and install the same default states. */
  function New(minutes: u8, cpuinfo: seq<string>): (r: Result<Average>)
    ensures r.Err? <==> minutes !in LoadAverage.Periods
    ensures r.Ok? ==> ValidAverage(r.value) && r.value.cores == ProcessorLines(cpuinfo)
    ensures r.Ok? ==> LoadAverage.Periods[r.value.period] == minutes
    ensures r.Ok? ==> r.value.agent == Agent(LoadAverage.DefaultStates, None)
  {
    var period :- LoadAverage.Setup(minutes);
    Ok(Average(ProcessorLines(cpuinfo), period, Agent(LoadAverage.DefaultStates, None)))
  }

  /** Average times 100 over the cores, truncated to 100. */
  function Percentage(avg: real, cores: nat): (r: real)
    requires cores > 0
    ensures r <= 100.0
    ensures avg * 100.0 <= 100.0 * (cores as real) ==> r * (cores as real) == avg * 100.0
    ensures avg * 100.0 > 100.0 * (cores as real) ==> r == 100.0
    ensures avg >= 0.0 ==> r >= 0.0
  {
    var rc := avg * 100.0 / (cores as real);
    if rc > 100.0 then 100.0 else rc
  }

  /** `CPUAverage::get`: the clamped percentage goes through `set`. */
  function Get(a: Average, compare: (real, real, real) -> bool, sample: LoadAverage.Sample): (r: Result<(Average, Signal, real)>)
    requires ValidAverage(a) && a.cores > 0
    requires sample.Some? ==> |sample.value| == |LoadAverage.Periods|
    ensures r.Err? <==> sample.None?
    ensures r.Ok? ==> r.value.2 == Percentage(sample.value[a.period], a.cores) && r.value.2 <= 100.0
    ensures r.Ok? ==> r.value.0.cores == a.cores && r.value.0.period == a.period && ValidAverage(r.value.0)
    ensures r.Ok? ==> (r.value.0.agent, r.value.1, r.value.2) == Set(a.agent, compare, r.value.2)
  {
    match sample
    case None => Err("Can't get system load average")
    case Some(avg) =>
      var s := Set(a.agent, compare, Percentage(avg[a.period], a.cores));
      Ok((Average(a.cores, a.period, s.0), s.1, s.2))
  }

  /** Assuming half-open ranges: on four cores a load of 2 is 50% ("gt50"), and
      any load of four or more is clamped to 100, which no default state
      contains, so nothing is signalled. */
  lemma FourCores(a: Average, load: real)
    requires ValidAverage(a) && a.cores == 4 && a.period == 0 && a.agent == Agent(LoadAverage.DefaultStates, None)
    requires load >= 4.0
    ensures var r := Get(a, HalfOpen, Some([2.0, 0.0, 0.0]));
            r.Ok? && r.value.2 == 50.0 && r.value.0.agent.active == Some(1) && r.value.1 == Updated(true)
    ensures var r := Get(a, HalfOpen, Some([load, 0.0, 0.0]));
            r.Ok? && r.value.2 == 100.0 && r.value.1 == Untouched
  {
    assert FirstMatch(LoadAverage.DefaultStates, HalfOpen, 50.0, 0) == Some(1);
    assert FirstMatch(LoadAverage.DefaultStates, HalfOpen, 100.0, 0) == None;
  }
}

=== FILE: cpu_stat.dfy ===
/** The CPU tick counters of the first line of /proc/stat (`Udjat::System::Stat`):
    field lookup by type or name, totals, wrapping subtraction and type names. */
module CpuStat {
  import opened Wrappers
  import opened Word
  import opened Text

  /** Counter kinds in declaration order; TOTAL is always after the ten internal ones. */
  datatype Type = USER | NICE | SYSTEM | IDLE | IOWAIT | IRQ | SOFTIRQ | STEAL | GUEST | GUEST_NICE | TOTAL

  /** Numeric value of the enumerator. */
  function Ordinal(t: Type): (n: nat)
    ensures n <= 10
    ensures n == 10 <==> t == TOTAL
  {
    match t
    case USER => 0
    case NICE => 1
    case SYSTEM => 2
    case IDLE => 3
    case IOWAIT => 4
    case IRQ => 5
    case SOFTIRQ => 6
    case STEAL => 7
    case GUEST => 8
    case GUEST_NICE => 9
    case TOTAL => 10
  }

  /** The cast `(Type) ix` for an index of the name table. */
  function FromOrdinal(n: nat): (t: Type)
    requires n <= 10
    ensures Ordinal(t) == n
  {
    [USER, NICE, SYSTEM, IDLE, IOWAIT, IRQ, SOFTIRQ, STEAL, GUEST, GUEST_NICE, TOTAL][n]
  }

  /** The name table, indexed by `Ordinal`. */
  const TypeNames: seq<string> :=
    ["user", "nice", "system", "idle", "iowait", "irq", "softirq", "steal", "guest", "guest_nice", "total"]

  /** The ten counters; each one defaults to 0. */
  datatype Stat = Stat(
    user: u64, nice: u64, system: u64, idle: u64, iowait: u64,
    irq: u64, softirq: u64, steal: u64, guest: u64, guest_nice: u64)

  const Default: Stat := Stat(0, 0, 0, 0, 0, 0, 0, 0, 0, 0)

  /** `total()`: the sum of all ten counters, including idle, in `unsigned long`. */
  function Total(s: Stat): (r: u64)
    ensures r == (GetRunning(s) + GetIdle(s)) % U64
  {
    ModAddRight(s.user + s.nice + s.system + s.iowait + s.irq + s.softirq + s.steal + s.guest + s.guest_nice, s.idle);
    RawSum(s) % U64
  }

  /** `getUsage()`: documented as the total number of ticks. */
  function GetUsage(s: Stat): u64 {
    (s.user + s.nice + s.system + s.idle + s.iowait + s.irq + s.softirq + s.steal + s.guest + s.guest_nice) % U64
  }

  /** `getRunning()`: every counter but idle. */
  function GetRunning(s: Stat): u64 {
    (s.user + s.nice + s.system + s.iowait + s.irq + s.softirq + s.steal + s.guest + s.guest_nice) % U64
  }

  /** `getIdle()`. */
  function GetIdle(s: Stat): u64 {
    s.idle
  }

  /** `operator[](Type)`: the counter named by the type, or the total. */
  function Field(s: Stat, t: Type): u64 {
    match t
    case USER => s.user
    case NICE => s.nice
    case SYSTEM => s.system
    case IDLE => s.idle
    case IOWAIT => s.iowait
    case IRQ => s.irq
    case SOFTIRQ => s.softirq
    case STEAL => s.steal
    case GUEST => s.guest
    case GUEST_NICE => s.guest_nice
    case TOTAL => Total(s)
  }

  /** Reference sum: the exact (unbounded) sum of the first `n` internal counters,
      taken through `Field`. */
  function SumFields(s: Stat, n: nat): nat
    requires n <= 10
  {
    if n == 0 then 0 else SumFields(s, n - 1) + Field(s, FromOrdinal(n - 1))
  }

  /** `operator-=`: every counter subtracted in `unsigned long`, no clamping. */
  function Subtract(a: Stat, b: Stat): (r: Stat)
    ensures forall n | 0 <= n < 10 :: Field(r, FromOrdinal(n)) == Sub64(Field(a, FromOrdinal(n)), Field(b, FromOrdinal(n)))
  {
    Stat(Sub64(a.user, b.user), Sub64(a.nice, b.nice), Sub64(a.system, b.system),
         Sub64(a.idle, b.idle), Sub64(a.iowait, b.iowait), Sub64(a.irq, b.irq),
         Sub64(a.softirq, b.softirq), Sub64(a.steal, b.steal), Sub64(a.guest, b.guest),
         Sub64(a.guest_nice, b.guest_nice))
  }

  /** Index of the first table name equal to `name` ignoring case, from `ix` on. */
  function FindTypeName(name: string, ix: nat): (r: Option<nat>)
    requires ix <= |TypeNames|
    ensures r.Some? ==> ix <= r.value < |TypeNames| && EqualsIgnoreCase(name, TypeNames[r.value])
    ensures r.Some? ==> forall j | ix <= j < r.value :: !EqualsIgnoreCase(name, TypeNames[j])
    ensures r.None? ==> forall j | ix <= j < |TypeNames| :: !EqualsIgnoreCase(name, TypeNames[j])
    decreases |TypeNames| - ix
  {
    if ix == |TypeNames| then None
    else if EqualsIgnoreCase(name, TypeNames[ix]) then Some(ix)
    else FindTypeName(name, ix + 1)
  }

  /** `TypeFactory(name)`: table lookup ignoring case, then a separate "total" check,
      then an exception. */
  function TypeFactory(name: string): (r: Result<Type>)
    ensures r.Ok? ==> EqualsIgnoreCase(name, TypeNames[Ordinal(r.value)])
    ensures r.Ok? ==> forall j | 0 <= j < Ordinal(r.value) :: !EqualsIgnoreCase(name, TypeNames[j])
    ensures r.Err? <==> forall j | 0 <= j < |TypeNames| :: !EqualsIgnoreCase(name, TypeNames[j])
  {
    match FindTypeName(name, 0)
    case Some(ix) => Ok(FromOrdinal(ix))
    case None =>
      if EqualsIgnoreCase(name, "total") then Ok(TOTAL)
      else Err("Unexpected property name '" + name + "'")
  }

  /** `operator[](const char *name)`: the field selected by name. It exists
      exactly when some table name matches, and it is the counter of the first
      matching entry. */
  function FieldByName(s: Stat, name: string): (r: Result<u64>)
    ensures r.Ok? <==> exists j | 0 <= j < |TypeNames| :: EqualsIgnoreCase(name, TypeNames[j])
    ensures r.Ok? ==> exists j | 0 <= j < |TypeNames| ::
      EqualsIgnoreCase(name, TypeNames[j]) && r.value == Field(s, FromOrdinal(j)) &&
      forall i | 0 <= i < j :: !EqualsIgnoreCase(name, TypeNames[i])
  {
    match TypeFactory(name)
    case Err(e) => Err(e)
    case Ok(t) =>
      assert FromOrdinal(Ordinal(t)) == t;
      Ok(Field(s, t))
  }

  /** `std::to_string(Type)` as written: the guard is `type > 11`, so type 11 reads
      one entry past the table. `None` marks that out-of-bounds read. */
  function TypeToStringAsWritten(t: u16): (r: Option<string>)
    ensures r.None? <==> t == |TypeNames|
    ensures t < |TypeNames| ==> r.Some? && TypeFactory(r.value) == Ok(FromOrdinal(t))
    ensures t > |TypeNames| ==> r == Some("undefined") && TypeFactory(r.value).Err?
  {
    TypeNamesRoundTrip(t);
    if t > |TypeNames| then Some("undefined")
    else if t < |TypeNames| then Some(TypeNames[t])
    else None
  }

  /** `std::to_string(Type)` with the evidently intended guard `type >= 11`. */
  function TypeToString(t: u16): (r: string)
    ensures t <= 10 ==> TypeFactory(r) == Ok(FromOrdinal(t))
    ensures t > 10 ==> r == "undefined" && TypeFactory(r).Err?
  {
    TypeNamesRoundTrip(t);
    if t >= |TypeNames| then "undefined" else TypeNames[t]
  }

  lemma LowerOfLowercase(s: string)
    requires forall i | 0 <= i < |s| :: !('A' <= s[i] <= 'Z')
    ensures Lower(s) == s
  {
  }

  /** Every table name is found at its own index: looking a name up and printing
      a type are inverse to each other, and "undefined" is not a type name. */
  lemma TypeNamesRoundTrip(t: nat)
    ensures t <= 10 ==> TypeFactory(TypeNames[t]) == Ok(FromOrdinal(t))
    ensures TypeFactory("undefined").Err?
  {
    if t <= 10 {
      TypeNameFound(t);
    }
    UndefinedIsNoType();
  }

  lemma TypeNameFound(t: nat)
    requires t < |TypeNames|
    ensures TypeFactory(TypeNames[t]) == Ok(FromOrdinal(t))
  {
    LowerOfLowercase(TypeNames[t]);
    forall j | 0 <= j < t
      ensures !EqualsIgnoreCase(TypeNames[t], TypeNames[j])
    {
      LowerOfLowercase(TypeNames[j]);
    }
  }

  lemma UndefinedIsNoType()
    ensures TypeFactory("undefined").Err?
  {
    LowerOfLowercase("undefined");
    forall j | 0 <= j < |TypeNames|
      ensures !EqualsIgnoreCase("undefined", TypeNames[j])
    {
      LowerOfLowercase(TypeNames[j]);
    }
  }

  /** Lookup ignores case: a name and its lower-case form select the same type. */
  lemma TypeFactoryIgnoresCase(name: string)
    ensures TypeFactory(name) == TypeFactory(Lower(name)) || TypeFactory(name).Err?
    ensures TypeFactory(name).Ok? <==> TypeFactory(Lower(name)).Ok?
  {
    assert Lower(Lower(name)) == Lower(name);
    forall j | 0 <= j < |TypeNames|
      ensures EqualsIgnoreCase(name, TypeNames[j]) <==> EqualsIgnoreCase(Lower(name), TypeNames[j])
    {
    }
  }

  /** "IDLE" selects the idle counter. */
  lemma IdleUpperCase()
    ensures TypeFactory("IDLE") == Ok(IDLE)
  {
    TypeNamesRoundTrip(3);
    assert Lower("IDLE") == "idle";
    TypeFactoryIgnoresCase("IDLE");
  }

  /** The separate "total" check after the table scan is dead code: "total" is the
      last table entry, so a name that reaches that comparison is never "total". */
  lemma TotalFallbackUnreachable(name: string)
    ensures FindTypeName(name, 0).None? ==> !EqualsIgnoreCase(name, "total")
  {
    assert TypeNames[10] == "total";
  }

  /** Selecting by a table name reads exactly the counter of that type, and the
      name "total" reads `total()`. */
  lemma FieldByTableName(s: Stat, t: nat)
    requires t <= 10
    ensures FieldByName(s, TypeNames[t]) == Ok(Field(s, FromOrdinal(t)))
    ensures FieldByName(s, "total") == Ok(Total(s))
  {
    TypeNamesRoundTrip(t);
    TypeNamesRoundTrip(10);
  }

  /** `total()` is the sum of the ten counters read through `operator[]`, in `unsigned long`. */
  lemma {:induction false} TotalIsSumOfFields(s: Stat)
    ensures Total(s) == SumFields(s, 10) % U64
    ensures Field(s, TOTAL) == Total(s)
  {
    assert SumFields(s, 1) == s.user;
    assert SumFields(s, 2) == s.user + s.nice;
    assert SumFields(s, 3) == s.user + s.nice + s.system;
    assert SumFields(s, 4) == s.user + s.nice + s.system + s.idle;
    assert SumFields(s, 5) == s.user + s.nice + s.system + s.idle + s.iowait;
    assert SumFields(s, 6) == s.user + s.nice + s.system + s.idle + s.iowait + s.irq;
    assert SumFields(s, 7) == s.user + s.nice + s.system + s.idle + s.iowait + s.irq + s.softirq;
    assert SumFields(s, 8) == s.user + s.nice + s.system + s.idle + s.iowait + s.irq + s.softirq + s.steal;
    assert SumFields(s, 9) == s.user + s.nice + s.system + s.idle + s.iowait + s.irq + s.softirq + s.steal + s.guest;
    assert SumFields(s, 10) == s.user + s.nice + s.system + s.idle + s.iowait + s.irq + s.softirq + s.steal + s.guest + s.guest_nice;
  }

  /** `getUsage()` always equals `total()`, and `getRunning()` plus idle is the total. */
  lemma UsageAndRunning(s: Stat)
    ensures GetUsage(s) == Total(s)
    ensures (GetRunning(s) + GetIdle(s)) % U64 == Total(s)
  {
  }

  /** A default record has every counter at 0. */
  lemma DefaultIsZero(t: Type)
    ensures Field(Default, t) == 0
  {
    if t == TOTAL {
      assert Total(Default) == 0;
    }
  }

  lemma ModAddRight(a: nat, b: nat)
    ensures (a % U64 + b) % U64 == (a + b) % U64
  {
    ModAddLeft(a, b, U64);
  }

  /** The exact, unbounded sum of the ten counters. */
  function RawSum(s: Stat): nat {
    s.user + s.nice + s.system + s.idle + s.iowait + s.irq + s.softirq + s.steal + s.guest + s.guest_nice
  }

  /** One wrapped difference is the exact one plus a multiple of 2^64. */
  lemma Wrap(x: u64, y: u64) returns (k: int)
    ensures Sub64(x, y) == x - y + k * U64
  {
    k := if x < y then 1 else 0;
  }

  /** Each field of a wrapped difference is off by at most one multiple of 2^64. */
  lemma SubtractWraps(a: Stat, b: Stat) returns (k: int)
    ensures RawSum(Subtract(a, b)) == RawSum(a) - RawSum(b) + k * U64
  {
    var d := Subtract(a, b);
    var k0 := Wrap(a.user, b.user);
    var k1 := Wrap(a.nice, b.nice);
    var k2 := Wrap(a.system, b.system);
    var k3 := Wrap(a.idle, b.idle);
    var k4 := Wrap(a.iowait, b.iowait);
    var k5 := Wrap(a.irq, b.irq);
    var k6 := Wrap(a.softirq, b.softirq);
    var k7 := Wrap(a.steal, b.steal);
    var k8 := Wrap(a.guest, b.guest);
    var k9 := Wrap(a.guest_nice, b.guest_nice);
    k := k0 + k1 + k2 + k3 + k4 + k5 + k6 + k7 + k8 + k9;
    assert RawSum(d) == Sub64(a.user, b.user) + Sub64(a.nice, b.nice) + Sub64(a.system, b.system) +
      Sub64(a.idle, b.idle) + Sub64(a.iowait, b.iowait) + Sub64(a.irq, b.irq) + Sub64(a.softirq, b.softirq) +
      Sub64(a.steal, b.steal) + Sub64(a.guest, b.guest) + Sub64(a.guest_nice, b.guest_nice);
  }

  lemma ModDiff(x: nat, y: nat)
    ensures (x % U64 - y % U64) % U64 == (x - y) % U64
  {
    assert x % U64 - y % U64 == x - y - (x / U64 - y / U64) * U64;
    ModShift(x - y, x / U64 - y / U64, U64);
  }

  /** A sum that is off from the exact difference by a multiple of 2^64 has the
      wrapped difference of the reductions as its reduction. */
  lemma WrappedDiff(x: nat, y: nat, z: nat, k: int)
    requires z == x - y + k * U64
    ensures z % U64 == (x % U64 - y % U64) % U64
  {
    ModShift(x - y, -k, U64);
    ModDiff(x, y);
  }

  lemma TotalIsRawSum(s: Stat)
    ensures Total(s) == RawSum(s) % U64
  {
  }

  /** `operator-=` is subtraction modulo 2^64 on every field, so it carries over to
      the total: the total of the difference is the difference of the totals. */
  lemma SubtractTotal(a: Stat, b: Stat)
    ensures Total(Subtract(a, b)) == (Total(a) - Total(b)) % U64
  {
    var d := Subtract(a, b);
    var k := SubtractWraps(a, b);
    TotalIsRawSum(a);
    TotalIsRawSum(b);
    TotalIsRawSum(d);
    ReducedDiff(RawSum(a), RawSum(b), RawSum(d), k, Total(a), Total(b), Total(d));
  }

  lemma ReducedDiff(x: nat, y: nat, z: nat, k: int, tx: int, ty: int, tz: int)
    requires z == x - y + k * U64
    requires tx == x % U64 && ty == y % U64 && tz == z % U64
    ensures tz == (tx - ty) % U64
  {
    WrappedDiff(x, y, z, k);
  }

  /** Finding: the guard of `std::to_string(Type)` lets 11 through to an
      out-of-bounds read, while the corrected guard maps it to "undefined". */
  lemma TypeToStringOffByOne()
    ensures TypeToStringAsWritten(11).None?
    ensures TypeToString(11) == "undefined"
    ensures forall t: u16 | t != 11 :: TypeToStringAsWritten(t) == Some(TypeToString(t))
  {
  }
}

=== FILE: disk_agent.dfy ===
/** The disk speed agent (`SysInfo::DiskStat::Agent`): total bytes read and
    written by all physical disks, and read/write speeds in bytes per second
    between two refreshes. */
module DiskAgent {
  import opened Wrappers
  import opened Word
  import opened Text
  import DiskStat

  /** The agent's own unit table; kilobytes appear twice. */
  datatype Unit = Unit(value: real, id: string, speed: string)

  const Units: seq<Unit> := [
    Unit(1.0, "B", "B/s"),
    Unit(1024.0, "KB", "KB/s"),
    Unit(1024.0, "KB", "KB/s"),
    Unit(1048576.0, "MB", "MB/s"),
    Unit(1073741824.0, "GB", "GB/s")
  ]

  /** Unit name used when the definition gives none. */
  const DefaultUnitName: string := "MB"

  /** The selection test as written: the unit is taken when the name equals its
      symbol, or when the name differs from its label (`strcasecmp` nonzero). */
  predicate SelectsAsWritten(name: string, u: Unit) {
    EqualsIgnoreCase(name, u.id) || !EqualsIgnoreCase(name, u.speed)
  }

  /** The first unit from `ix` on that the selection test takes. */
  function FirstSelected(name: string, ix: nat, selects: (string, Unit) -> bool): (r: Option<nat>)
    requires ix <= |Units|
    ensures r.Some? ==> ix <= r.value < |Units| && selects(name, Units[r.value])
    ensures r.Some? ==> forall k | ix <= k < r.value :: !selects(name, Units[k])
    ensures r.None? <==> forall k | ix <= k < |Units| :: !selects(name, Units[k])
    decreases |Units| - ix
  {
    if ix == |Units| then None
    else if selects(name, Units[ix]) then Some(ix)
    else FirstSelected(name, ix + 1, selects)
  }

  /** Unit selection of the constructor as written: the first unit passing the
      test, or the bytes unit when none does. */
  function SelectUnitAsWritten(name: string): (ix: nat)
    ensures ix < |Units|
    ensures ix > 0 ==> SelectsAsWritten(name, Units[ix]) && forall k | 0 <= k < ix :: !SelectsAsWritten(name, Units[k])
  {
    match FirstSelected(name, 0, SelectsAsWritten)
    case Some(ix) => ix
    case None => 0
  }

  /** The as-written test is passed by the bytes unit for every name but "B/s",
      and then first by the kilobytes unit. */
  lemma FirstSelectedAsWritten(name: string)
    ensures FirstSelected(name, 0, SelectsAsWritten) == Some(if EqualsIgnoreCase(name, "B/s") then 1 else 0)
  {
    if EqualsIgnoreCase(name, "B/s") {
      assert !EqualsIgnoreCase(name, "B") by {
        assert |Lower(name)| == 3;
      }
      assert !EqualsIgnoreCase(name, "KB/s") by {
        assert Lower(name)[0] == 'b' && Lower("KB/s")[0] == 'k';
      }
      assert FirstSelected(name, 0, SelectsAsWritten) == Some(1);
    } else {
      assert FirstSelected(name, 0, SelectsAsWritten) == Some(0);
    }
  }

  /** As written, the selection only ever yields bytes, or kilobytes for the
      label "B/s"; the default name "MB" selects bytes where the corrected
      selection gives megabytes. */
  lemma SelectUnitAsWrittenOutcome(name: string)
    ensures SelectUnitAsWritten(name) == (if EqualsIgnoreCase(name, "B/s") then 1 else 0)
    ensures SelectUnitAsWritten(DefaultUnitName) == 0
    ensures SelectUnit(DefaultUnitName) == 3
  {
    FirstSelectedAsWritten(name);
    FirstSelectedAsWritten(DefaultUnitName);
    SelectUnitByName(3);
  }

  /** The selection test the loop evidently means: the name equals the symbol or
      the label, ignoring case. */
  predicate Selects(name: string, u: Unit) {
    EqualsIgnoreCase(name, u.id) || EqualsIgnoreCase(name, u.speed)
  }

  /** Corrected selection: the first unit named by its symbol or label, and bytes
      when none is. */
  function SelectUnit(name: string): (ix: nat)
    ensures ix < |Units|
    ensures ix > 0 ==> Selects(name, Units[ix]) && forall k | 0 <= k < ix :: !Selects(name, Units[k])
    ensures ix == 0 ==> Selects(name, Units[0]) || forall k | 0 <= k < |Units| :: !Selects(name, Units[k])
  {
    match FirstSelected(name, 0, Selects)
    case Some(ix) => ix
    case None => 0
  }

  /** Every unit is selected by its own symbol and its own label (the first of
      the two kilobyte rows for kilobytes); the default selects megabytes. */
  lemma SelectUnitByName(ix: nat)
    requires ix < |Units| && ix != 2
    ensures SelectUnit(Units[ix].id) == ix
    ensures SelectUnit(Units[ix].speed) == ix
    ensures SelectUnit(DefaultUnitName) == 3
  {
    var u := Units[ix];
    forall k | 0 <= k < ix ensures !Selects(u.id, Units[k]) && !Selects(u.speed, Units[k]) {
      DistinctUnitNames(k, ix);
    }
    assert FirstSelected(u.id, 0, Selects) == Some(ix);
    assert FirstSelected(u.speed, 0, Selects) == Some(ix);
    forall k | 0 <= k < 3 ensures !Selects(DefaultUnitName, Units[k]) {
      DistinctUnitNames(k, 3);
    }
    assert FirstSelected(DefaultUnitName, 0, Selects) == Some(3);
  }

  /** Units in different rows (other than the repeated kilobyte row) have names
      that differ ignoring case. */
  lemma DistinctUnitNames(k: nat, ix: nat)
    requires k < ix < |Units| && !(k == 1 && ix == 2)
    ensures !Selects(Units[ix].id, Units[k]) && !Selects(Units[ix].speed, Units[k])
  {
    var a := Units[k];
    var b := Units[ix];
    if |b.id| == |a.id| {
      assert Lower(b.id)[0] != Lower(a.id)[0];
    }
    if |b.speed| == |a.speed| {
      assert Lower(b.speed)[0] != Lower(a.speed)[0];
    }
    assert |Lower(b.id)| < |Lower(a.speed)| && |Lower(a.id)| < |Lower(b.speed)|;
  }

  /** A disk as the agent reads it: its counter record and its sector size. */
  datatype Device = Device(stat: DiskStat.Stat, blockSize: nat)

  function ReadBytes(d: Device): real {
    (DiskStat.ReadBlocks(d.stat) as real) * (d.blockSize as real)
  }

  function WriteBytes(d: Device): real {
    (DiskStat.WriteBlocks(d.stat) as real) * (d.blockSize as real)
  }

  /** Bytes read and written by the physical disks among `devs`, summed in order. */
  function Totals(devs: seq<Device>): (t: (real, real))
    ensures t.0 >= 0.0 && t.1 >= 0.0
  {
    if |devs| == 0 then (0.0, 0.0)
    else
      var t := Totals(devs[..|devs| - 1]);
      var d := devs[|devs| - 1];
      if DiskStat.Physical(d.stat) then (t.0 + ReadBytes(d), t.1 + WriteBytes(d)) else t
  }

  function PhysicalDevices(devs: seq<Device>): (r: seq<Device>)
    ensures forall i | 0 <= i < |r| :: DiskStat.Physical(r[i].stat)
  {
    if |devs| == 0 then []
    else
      var init := PhysicalDevices(devs[..|devs| - 1]);
      if DiskStat.Physical(devs[|devs| - 1].stat) then init + [devs[|devs| - 1]] else init
  }

  /** Totals add up over a split of the device list. */
  lemma {:induction false} TotalsAppend(a: seq<Device>, b: seq<Device>)
    ensures Totals(a + b).0 == Totals(a).0 + Totals(b).0
    ensures Totals(a + b).1 == Totals(a).1 + Totals(b).1
    decreases |b|
  {
    if |b| > 0 {
      assert (a + b)[..|a + b| - 1] == a + b[..|b| - 1];
      assert (a + b)[|a + b| - 1] == b[|b| - 1];
      TotalsAppend(a, b[..|b| - 1]);
    } else {
      assert a + b == a;
    }
  }

  /** Only physical disks count: the totals of the list are those of its physical
      disks, and partitions or aggregates add nothing. */
  lemma {:induction false} TotalsPhysicalOnly(devs: seq<Device>)
    ensures Totals(devs) == Totals(PhysicalDevices(devs))
  {
    if |devs| > 0 {
      var init := devs[..|devs| - 1];
      var d := devs[|devs| - 1];
      TotalsPhysicalOnly(init);
      var t := Totals(init);
      if DiskStat.Physical(d.stat) {
        var p := PhysicalDevices(init);
        assert PhysicalDevices(devs) == p + [d];
        TotalsAppend(p, [d]);
        TotalsOne(d);
        assert Totals(devs) == (t.0 + ReadBytes(d), t.1 + WriteBytes(d));
      } else {
        assert Totals(devs) == t;
      }
    }
  }

  /** The totals of a single physical disk are its own byte counts. */
  lemma TotalsOne(d: Device)
    requires DiskStat.Physical(d.stat)
    ensures Totals([d]) == (ReadBytes(d), WriteBytes(d))
  {
    assert [d][..0] == [];
  }

  /** Agent state: the last refresh time in milliseconds, the byte totals of that
      moment, and the speeds of the last cycle. */
  datatype Agent = Agent(unit: nat, timestamp: u64, savedRead: real, savedWrite: real, read: real, write: real)

  /** The constructor: refuses an update interval of zero, otherwise records the
      current time and totals with no speed yet, and the unit its selection loop
      picks as written. */
  function New(unitName: string, updateInterval: nat, now: u64, devs: seq<Device>): (r: Result<Agent>)
    ensures r.Err? <==> updateInterval == 0
    ensures r.Ok? ==> r.value.timestamp == now && r.value.read == 0.0 && r.value.write == 0.0
    ensures r.Ok? ==> (r.value.savedRead, r.value.savedWrite) == Totals(devs)
    ensures r.Ok? ==> r.value.unit == SelectUnitAsWritten(unitName)
    ensures r.Ok? ==> r.value.unit == (if EqualsIgnoreCase(unitName, "B/s") then 1 else 0)
  {
    FirstSelectedAsWritten(unitName);
    if updateInterval == 0 then Err("Disk stats requires an update time")
    else
      var t := Totals(devs);
      Ok(Agent(SelectUnitAsWritten(unitName), now, t.0, t.1, 0.0, 0.0))
  }

  /** Speed over one direction: only when something was saved and the total grew. */
  function Rate(saved: real, current: real, msec: nat): (r: real)
    requires msec > 0
    ensures r >= 0.0
    ensures r > 0.0 <==> saved != 0.0 && current > saved
    ensures r > 0.0 ==> r * (msec as real) == (current - saved) * 1000.0
  {
    if saved != 0.0 && current > saved then (current - saved) / ((msec as real) / 1000.0) else 0.0
  }

  /** `refresh`: elapsed milliseconds in `unsigned long`; none elapsed means no
      update and nothing changes; otherwise speeds from the new totals, which
      are saved with the time. */
  function Refresh(a: Agent, now: u64, devs: seq<Device>): (r: (Agent, bool))
    ensures !r.1 <==> Sub64(now, a.timestamp) == 0
    ensures !r.1 ==> r.0 == a
    ensures r.1 ==> r.0.timestamp == now && (r.0.savedRead, r.0.savedWrite) == Totals(devs)
    ensures r.1 ==> r.0.unit == a.unit
    ensures r.0.read >= 0.0 || r.0 == a
  {
    var msec := Sub64(now, a.timestamp);
    if msec == 0 then (a, false)
    else
      var t := Totals(devs);
      (Agent(a.unit, now, t.0, t.1, Rate(a.savedRead, t.0, msec), Rate(a.savedWrite, t.1, msec)), true)
  }

  /** The speeds of a refresh are those of `Disk::Stat::Data`'s rule (positive
      byte delta over positive time) once something has been saved; with nothing
      saved they stay zero. */
  lemma RefreshSpeeds(a: Agent, now: u64, devs: seq<Device>)
    requires Sub64(now, a.timestamp) > 0
    ensures var msec := Sub64(now, a.timestamp);
            var r := Refresh(a, now, devs).0;
            r.read >= 0.0 && r.write >= 0.0 &&
            (r.read > 0.0 <==> a.savedRead != 0.0 && Totals(devs).0 > a.savedRead) &&
            (r.write > 0.0 <==> a.savedWrite != 0.0 && Totals(devs).1 > a.savedWrite) &&
            (r.read > 0.0 ==> r.read * (msec as real) == (Totals(devs).0 - a.savedRead) * 1000.0)
  {
  }

  /** Two refreshes at the same moment: the second reports no update; a refresh
      with totals unchanged reports zero speeds. */
  lemma RefreshTwice(a: Agent, now: u64, devs: seq<Device>)
    requires Sub64(now, a.timestamp) > 0
    ensures var r := Refresh(a, now, devs);
            Refresh(r.0, now, devs) == (r.0, false)
    ensures Refresh(Refresh(a, now, devs).0, (now + 1) % U64, devs).0.read == 0.0
  {
    var r := Refresh(a, now, devs).0;
    assert Sub64((now + 1) % U64, r.timestamp) == 1;
  }
}

=== FILE: disk_data.dfy ===
/** Byte units and the speed bookkeeping of a disk (`Udjat::Disk::Unit` and
    `Udjat::Disk::Stat::Data`): saved byte totals and millisecond counters, and
    speeds in bytes per second computed from their deltas. */
module DiskData {
  import opened Wrappers
  import opened Word
  import DiskStat

  /** A size unit: bytes per unit, its symbol and the label of its speed. */
  datatype Unit = Unit(value: real, id: string, speed: string)

  const Units: seq<Unit> := [
    Unit(1.0, "B", "B/s"),
    Unit(1024.0, "KB", "KB/s"),
    Unit(1048576.0, "MB", "MB/s"),
    Unit(1073741824.0, "GB", "GB/s")
  ]

  /** Default unit name of `Unit::get` on a string, and of the XML overload. */
  const DefaultUnitName: string := "MB"
  const DefaultXmlUnitName: string := "M"

  /** The first unit from `ix` on whose symbol starts with the first character of
      `name` (compared exactly, not ignoring case). */
  function FindUnit(name: string, ix: nat): (r: Option<nat>)
    requires |name| > 0
    requires ix <= |Units|
    ensures r.Some? ==> ix <= r.value < |Units| && Units[r.value].id[0] == name[0]
    ensures r.Some? ==> forall k | ix <= k < r.value :: Units[k].id[0] != name[0]
    ensures r.None? <==> forall k | ix <= k < |Units| :: Units[k].id[0] != name[0]
    decreases |Units| - ix
  {
    if ix == |Units| then None
    else if Units[ix].id[0] == name[0] then Some(ix)
    else FindUnit(name, ix + 1)
  }

  /** `Unit::get(name)`: the unit selected by the first letter of `name`. The
      empty string has only its terminator, which matches no symbol. */
  function UnitGet(name: string): (r: Result<Unit>)
    ensures r.Ok? ==> |name| > 0 && exists ix | 0 <= ix < |Units| :: Units[ix] == r.value && Units[ix].id[0] == name[0]
    ensures r.Err? <==> |name| == 0 || forall k | 0 <= k < |Units| :: Units[k].id[0] != name[0]
    ensures r.Err? ==> r.error == "Invalid unit '" + name + "'"
  {
    if |name| == 0 then Err("Invalid unit '" + name + "'")
    else
      match FindUnit(name, 0)
      case None => Err("Invalid unit '" + name + "'")
      case Some(ix) => Ok(Units[ix])
  }

  /** A unit is found by its own symbol, and by any string starting with it. */
  lemma UnitGetBySymbol(ix: nat, suffix: string)
    requires ix < |Units|
    ensures UnitGet(Units[ix].id + suffix) == Ok(Units[ix])
  {
    var name := Units[ix].id + suffix;
    assert name[0] == Units[ix].id[0];
    assert FindUnit(name, 0) == Some(ix);
  }

  /** Both defaults select megabytes; "K" selects kilobytes. */
  lemma UnitGetDefaults()
    ensures UnitGet(DefaultUnitName) == Ok(Unit(1048576.0, "MB", "MB/s"))
    ensures UnitGet(DefaultXmlUnitName) == UnitGet(DefaultUnitName)
    ensures UnitGet("K").Ok? && UnitGet("K").value.value == 1024.0
  {
    assert FindUnit(DefaultUnitName, 0) == Some(2);
    assert FindUnit(DefaultXmlUnitName, 0) == Some(2);
    assert FindUnit("K", 0) == Some(1);
  }

  /** The match is case-sensitive, and the empty name matches nothing. */
  lemma UnitGetRefused()
    ensures UnitGet("").Err? && UnitGet("m").Err? && UnitGet("kb").Err?
    ensures UnitGet("m").error == "Invalid unit 'm'"
  {
  }

  /** What was read or written up to the last cycle. */
  datatype Saved = Saved(bytes: real, time: u32)

  /** Speeds of the last cycle and the totals they were computed from. */
  datatype Data = Data(read: real, write: real, savedRead: Saved, savedWrite: Saved)

  const Default: Data := Data(0.0, 0.0, Saved(0.0, 0), Saved(0.0, 0))

  /** Bytes per second of `bytes` transferred in `msec` milliseconds; 0 unless both
      are positive. */
  function Speed(bytes: real, msec: nat): (r: real)
    ensures r >= 0.0
    ensures r > 0.0 <==> bytes > 0.0 && msec > 0
    ensures r > 0.0 ==> r * (msec as real) == bytes * 1000.0
  {
    if bytes > 0.0 && msec > 0 then bytes / ((msec as real) / 1000.0) else 0.0
  }

  /** Bytes behind a block counter. */
  function Bytes(blocks: nat, blockSize: nat): real {
    (blocks as real) * (blockSize as real)
  }

  /** `Data(stat)`: no speed yet; saved totals are the record's blocks times the
      block size and its millisecond counters. */
  function FromStat(st: DiskStat.Stat, blockSize: nat): (d: Data)
    ensures d.read == 0.0 && d.write == 0.0
    ensures d.savedRead == Saved(Bytes(DiskStat.ReadBlocks(st), blockSize), DiskStat.ReadTime(st))
    ensures d.savedWrite == Saved(Bytes(DiskStat.WriteBlocks(st), blockSize), DiskStat.WriteTime(st))
  {
    Data(0.0, 0.0,
         Saved(Bytes(DiskStat.ReadBlocks(st), blockSize), DiskStat.ReadTime(st)),
         Saved(Bytes(DiskStat.WriteBlocks(st), blockSize), DiskStat.WriteTime(st)))
  }

  /** `reset(data)`: every field of `data` is overwritten, speeds to zero and the
      saved values from the record. */
  function Reset(st: DiskStat.Stat, blockSize: nat, data: Data): (d: Data)
    ensures d.read == 0.0 && d.write == 0.0
    ensures d.savedRead.bytes == Bytes(DiskStat.ReadBlocks(st), blockSize)
    ensures d.savedWrite.bytes == Bytes(DiskStat.WriteBlocks(st), blockSize)
    ensures d.savedRead.time == DiskStat.ReadTime(st) && d.savedWrite.time == DiskStat.WriteTime(st)
  {
    var readBytes := Bytes(DiskStat.ReadBlocks(st), blockSize);
    var writeBytes := Bytes(DiskStat.WriteBlocks(st), blockSize);
    Data(0.0, 0.0, Saved(readBytes, DiskStat.ReadTime(st)), Saved(writeBytes, DiskStat.WriteTime(st)))
  }

  /** Speed over one direction: byte delta as a real difference, time delta as an
      `unsigned int` subtraction (a counter that went back wraps to a large
      positive value). */
  function DirectionSpeed(before: Saved, after: Saved): (r: real)
    ensures r >= 0.0
    ensures r > 0.0 <==> after.bytes > before.bytes && after.time != before.time
  {
    Speed(after.bytes - before.bytes, Sub32(after.time, before.time))
  }

  /** `compute(data)`: speeds from the record against what `data` saved, then the
      record becomes the saved state. */
  function Compute(st: DiskStat.Stat, blockSize: nat, data: Data): (d: Data)
    ensures d.savedRead == Saved(Bytes(DiskStat.ReadBlocks(st), blockSize), DiskStat.ReadTime(st))
    ensures d.savedWrite == Saved(Bytes(DiskStat.WriteBlocks(st), blockSize), DiskStat.WriteTime(st))
    ensures d.read >= 0.0 && d.write >= 0.0
  {
    var readBytes := Bytes(DiskStat.ReadBlocks(st), blockSize);
    var writeBytes := Bytes(DiskStat.WriteBlocks(st), blockSize);
    var bytesRead := readBytes - data.savedRead.bytes;
    var bytesWrite := writeBytes - data.savedWrite.bytes;
    var timeRead := Sub32(DiskStat.ReadTime(st), data.savedRead.time);
    var timeWrite := Sub32(DiskStat.WriteTime(st), data.savedWrite.time);
    Data(Speed(bytesRead, timeRead), Speed(bytesWrite, timeWrite),
         Saved(readBytes, DiskStat.ReadTime(st)), Saved(writeBytes, DiskStat.WriteTime(st)))
  }

  /** `unsigned int` addition of two millisecond counters. */
  function AddTime(a: u32, b: u32): (r: u32)
    ensures a + b < U32 ==> r == a + b
    ensures a + b >= U32 ==> r == a + b - U32
  {
    (a + b) % U32
  }

  /** `Data += Data`: every field added, times in `unsigned int`. */
  function AddData(a: Data, b: Data): (r: Data)
    ensures r.read == a.read + b.read && r.write == a.write + b.write
    ensures r.savedRead.bytes == a.savedRead.bytes + b.savedRead.bytes
    ensures r.savedWrite.bytes == a.savedWrite.bytes + b.savedWrite.bytes
    ensures r.savedRead.time == (a.savedRead.time + b.savedRead.time) % U32
    ensures r.savedWrite.time == (a.savedWrite.time + b.savedWrite.time) % U32
  {
    Data(a.read + b.read, a.write + b.write,
         Saved(a.savedRead.bytes + b.savedRead.bytes, AddTime(a.savedRead.time, b.savedRead.time)),
         Saved(a.savedWrite.bytes + b.savedWrite.bytes, AddTime(a.savedWrite.time, b.savedWrite.time)))
  }

  /** `Data += Stat`: the record's saved values added in; the speeds are unchanged
      because a fresh `Data(stat)` has none. */
  function AddStat(a: Data, st: DiskStat.Stat, blockSize: nat): (r: Data)
    ensures r.read == a.read && r.write == a.write
    ensures r.savedRead.bytes == a.savedRead.bytes + Bytes(DiskStat.ReadBlocks(st), blockSize)
    ensures r.savedWrite.bytes == a.savedWrite.bytes + Bytes(DiskStat.WriteBlocks(st), blockSize)
  {
    var readBytes := Bytes(DiskStat.ReadBlocks(st), blockSize);
    var writeBytes := Bytes(DiskStat.WriteBlocks(st), blockSize);
    Data(a.read, a.write,
         Saved(a.savedRead.bytes + readBytes, AddTime(a.savedRead.time, DiskStat.ReadTime(st))),
         Saved(a.savedWrite.bytes + writeBytes, AddTime(a.savedWrite.time, DiskStat.WriteTime(st))))
  }

  /** `update(next)`: speeds from the saved totals of `next` against ours, then
      ours replaced by those of `next`, on every branch. */
  function Update(data: Data, next: Data): (d: Data)
    ensures d.savedRead == next.savedRead && d.savedWrite == next.savedWrite
    ensures d.read >= 0.0 && d.write >= 0.0
    ensures d.read > 0.0 <==> next.savedRead.bytes > data.savedRead.bytes && next.savedRead.time != data.savedRead.time
    ensures d.write > 0.0 <==> next.savedWrite.bytes > data.savedWrite.bytes && next.savedWrite.time != data.savedWrite.time
  {
    Data(DirectionSpeed(data.savedRead, next.savedRead), DirectionSpeed(data.savedWrite, next.savedWrite),
         next.savedRead, next.savedWrite)
  }

  /** The `Stat` constructor of `Data` and `reset` produce the same value,
      whatever `reset` was given. */
  lemma ResetIsFromStat(st: DiskStat.Stat, blockSize: nat, data: Data)
    ensures Reset(st, blockSize, data) == FromStat(st, blockSize)
    ensures Reset(DiskStat.Default, blockSize, data) == Default
  {
  }

  /** `compute` is `update` against a fresh `Data(stat)`. */
  lemma ComputeIsUpdate(st: DiskStat.Stat, blockSize: nat, data: Data)
    ensures Compute(st, blockSize, data) == Update(data, FromStat(st, blockSize))
  {
  }

  /** `Data += Stat` is `Data += Data(stat)`. */
  lemma AddStatIsAddData(a: Data, st: DiskStat.Stat, blockSize: nat)
    ensures AddStat(a, st, blockSize) == AddData(a, FromStat(st, blockSize))
  {
  }

  /** `Data += Data` is commutative, associative and has the default as unit. */
  lemma AddDataMonoid(a: Data, b: Data, c: Data)
    ensures AddData(a, b) == AddData(b, a)
    ensures AddData(a, Default) == a
    ensures AddData(AddData(a, b), c) == AddData(a, AddData(b, c))
  {
    AddTimeAssociative(a.savedRead.time, b.savedRead.time, c.savedRead.time);
    AddTimeAssociative(a.savedWrite.time, b.savedWrite.time, c.savedWrite.time);
  }

  lemma AddTimeAssociative(a: u32, b: u32, c: u32)
    ensures AddTime(AddTime(a, b), c) == AddTime(a, AddTime(b, c))
  {
    ModAddLeft(a + b, c, U32);
    ModAddLeft(b + c, a, U32);
    assert AddTime(a, AddTime(b, c)) == ((b + c) % U32 + a) % U32;
  }

  /** A speed times the elapsed seconds gives back the byte delta; a second update
      with nothing new transferred reports no speed. */
  lemma UpdateRecoversDelta(data: Data, next: Data)
    requires next.savedRead.bytes > data.savedRead.bytes && next.savedRead.time != data.savedRead.time
    ensures Update(data, next).read * ((Sub32(next.savedRead.time, data.savedRead.time) as real) / 1000.0)
            == next.savedRead.bytes - data.savedRead.bytes
    ensures Update(Update(data, next), next).read == 0.0 && Update(Update(data, next), next).write == 0.0
  {
  }

  /** A millisecond counter that went back still yields a positive speed when
      bytes increased, because the time delta wraps. */
  lemma TimeWrapStillCounts(data: Data, next: Data)
    requires next.savedRead.bytes > data.savedRead.bytes && next.savedRead.time < data.savedRead.time
    ensures Update(data, next).read > 0.0
    ensures Sub32(next.savedRead.time, data.savedRead.time) == next.savedRead.time - data.savedRead.time + U32
  {
  }
}

=== FILE: disk_stat.dfy ===
/** Disk counter records (`Udjat::Disk::Stat`): the /proc/diskstats line tokenizer
    and parser, the physical/logical predicates and the aggregation of all
    physical disks. */
module DiskStat {
  import opened Wrappers
  import opened Word
  import opened Text

  /** Positions of the fifteen counters of a line, in file order:
      read count/merged/blocks/time, write count/merged/blocks/time,
      io in-progress/time/weighted, discard count/merged/blocks/time. */
  const READ_BLOCKS: nat := 2
  const READ_TIME: nat := 3
  const WRITE_BLOCKS: nat := 6
  const WRITE_TIME: nat := 7
  const COUNTERS: nat := 15

  /** Width of the C++ field each counter is stored in: the read and write times and
      the three io fields are `unsigned int`, the others `unsigned long`. */
  function Width(i: nat): (w: nat)
    ensures w == U32 || w == U64
  {
    if i == 3 || i == 7 || i == 8 || i == 9 || i == 10 then U32 else U64
  }

  /** Fifteen counters, each within the width of its field. */
  type Counters = c: seq<nat> | |c| == 15 && forall i | 0 <= i < |c| :: c[i] < Width(i)
    witness [0, 0, 0, 0, 0, 0, 0, 0, 0, 0, 0, 0, 0, 0, 0]

  const NoCounters: Counters := [0, 0, 0, 0, 0, 0, 0, 0, 0, 0, 0, 0, 0, 0, 0]

  datatype Stat = Stat(major: u16, minor: u16, name: string, counters: Counters)

  /** `Stat()`: everything zero, no name. */
  const Default: Stat := Stat(0, 0, "", NoCounters)

  /** `physical()`: a whole disk. */
  predicate Physical(s: Stat) {
    s.major != 0 && s.minor == 0
  }

  /** `logical()`: a partition. */
  predicate Logical(s: Stat) {
    s.major != 0 && s.minor != 0
  }

  function ReadBlocks(s: Stat): u64 { s.counters[READ_BLOCKS] }
  function ReadTime(s: Stat): u32 { s.counters[READ_TIME] }
  function WriteBlocks(s: Stat): u64 { s.counters[WRITE_BLOCKS] }
  function WriteTime(s: Stat): u32 { s.counters[WRITE_TIME] }

  /** Physical and logical exclude each other, and a record with major 0 is
      neither; the default record in particular. */
  lemma PhysicalLogicalExclusive(s: Stat)
    ensures !(Physical(s) && Logical(s))
    ensures s.major == 0 ==> !Physical(s) && !Logical(s)
    ensures Physical(s) || Logical(s) <==> s.major != 0
    ensures !Physical(Default) && !Logical(Default)
    ensures forall i | 0 <= i < COUNTERS :: Default.counters[i] == 0
  {
  }

  const FormatError: string := "Unexpected format in /proc/diskstats"

  /** Position `q` starts a token: a blank before it, a non-blank at it. */
  predicate IsTokenStart(s: string, q: nat) {
    0 < q < |s| && IsSpace(s[q - 1]) && !IsSpace(s[q])
  }

  /** First loop of `next`: advance while not blank, failing at the terminator. */
  function SkipWord(s: string, p: nat): (r: Result<nat>)
    requires p < |s|
    ensures r.Ok? ==> p <= r.value < |s| && IsSpace(s[r.value])
    ensures r.Ok? ==> forall k | p <= k < r.value :: !IsSpace(s[k])
    ensures r.Err? ==> forall k | p <= k < |s| :: !IsSpace(s[k])
    ensures r.Err? ==> r.error == FormatError
    decreases |s| - p
  {
    if IsSpace(s[p]) then Ok(p)
    else if p + 1 == |s| then Err(FormatError)
    else SkipWord(s, p + 1)
  }

  /** Second loop of `next`: advance while blank, failing at the terminator. */
  function SkipBlanks(s: string, p: nat): (r: Result<nat>)
    requires p < |s|
    ensures r.Ok? ==> p <= r.value < |s| && !IsSpace(s[r.value])
    ensures r.Ok? ==> forall k | p <= k < r.value :: IsSpace(s[k])
    ensures r.Err? ==> forall k | p <= k < |s| :: IsSpace(s[k])
    ensures r.Err? ==> r.error == FormatError
    decreases |s| - p
  {
    if !IsSpace(s[p]) then Ok(p)
    else if p + 1 == |s| then Err(FormatError)
    else SkipBlanks(s, p + 1)
  }

  /** `next(ptr)`: the start of the next token strictly after `p`, or the format
      error when the line ends first. */
  function Next(s: string, p: nat): (r: Result<nat>)
    requires CString(s) && p < |s|
    ensures r.Ok? ==> p < r.value && IsTokenStart(s, r.value)
    ensures r.Ok? ==> forall k | p < k < r.value :: !IsTokenStart(s, k)
    ensures r.Err? ==> forall k | p < k < |s| :: !IsTokenStart(s, k)
    ensures r.Err? ==> r.error == FormatError
  {
    var b :- SkipWord(s, p);
    SkipBlanks(s, b)
  }

  /** `atoi` on a run of digits (signs are not modelled). */
  function Atoi(s: string, p: nat): nat
    requires p <= |s|
  {
    DecimalValue(s[p..DigitEnd(s, p)])
  }

  /** Up to `n` `%lu`/`%u` conversions of `sscanf` from position `p`. */
  function ScanCounters(s: string, p: nat, n: nat): (r: seq<nat>)
    requires p <= |s|
    ensures |r| <= n
    decreases |s| - p
  {
    if n == 0 then []
    else
      var conv := ScanUnsigned(s, p);
      if conv.None? then [] else [conv.value.0] + ScanCounters(s, conv.value.1, n - 1)
  }

  /** Storing a converted value: saturated at 2^64-1 by the conversion, then
      truncated to the width of the field. */
  function Store(values: seq<nat>): (c: Counters)
    requires |values| == COUNTERS
    ensures forall i | 0 <= i < COUNTERS :: values[i] < Width(i) ==> c[i] == values[i]
  {
    seq(COUNTERS, i requires 0 <= i < COUNTERS => Saturate64(values[i]) % Width(i))
  }

  /** `parse(st, line)`: major, minor and name from the first three tokens (the name
      runs up to one character before the fourth token), then exactly fifteen
      counters. */
  function Parse(line: string): (r: Result<Stat>)
    requires CString(line) && |line| > 0
    ensures r.Err? ==> r.error == FormatError
    ensures r.Ok? ==> 0 < |r.value.name| < |line| && !IsSpace(r.value.name[0])
  {
    var p1 :- Next(line, 0);
    var major := Trunc16(Atoi(line, p1));
    var p2 :- Next(line, p1);
    var minor := Trunc16(Atoi(line, p2));
    var from :- Next(line, p2);
    var p3 :- Next(line, from);
    var name := line[from..p3 - 1];
    var values := ScanCounters(line, p3, COUNTERS);
    if |values| != COUNTERS then Err(FormatError)
    else Ok(Stat(major, minor, name, Store(values)))
  }

  predicate Readable(lines: seq<string>) {
    forall i | 0 <= i < |lines| :: CString(lines[i]) && |lines[i]| > 0
  }

  /** The parse of every line, in line order. */
  function Parses(lines: seq<string>): (r: seq<Result<Stat>>)
    requires Readable(lines)
    ensures |r| == |lines| && forall i | 0 <= i < |lines| :: r[i] == Parse(lines[i])
  {
    seq(|lines|, i requires 0 <= i < |lines| && Readable(lines) => Parse(lines[i]))
  }

  /** Every value in order, or the first error met. */
  function Collect<T>(rs: seq<Result<T>>): (r: Result<seq<T>>)
    ensures r.Ok? ==> |r.value| == |rs|
    ensures r.Err? ==> |rs| > 0
  {
    if |rs| == 0 then Ok([])
    else if rs[0].Err? then Err(rs[0].error)
    else
      var rest := Collect(rs[1..]);
      if rest.Err? then Err(rest.error) else Ok([rs[0].value] + rest.value)
  }

  /** `Stat::get()`: one record per line, in line order; the first bad line throws. */
  function Get(lines: seq<string>): (r: Result<seq<Stat>>)
    requires Readable(lines)
    ensures r.Ok? ==> |r.value| == |lines|
    ensures r.Err? ==> |lines| > 0
  {
    Collect(Parses(lines))
  }

  /** `get` keeps one parsed record per line, in line order, and fails exactly
      when some line does not parse. */
  lemma GetParsesEachLine(lines: seq<string>)
    requires Readable(lines)
    ensures Get(lines).Ok? ==> forall i | 0 <= i < |lines| :: Parse(lines[i]) == Ok(Get(lines).value[i])
    ensures Get(lines).Err? <==> exists i | 0 <= i < |lines| :: Parse(lines[i]).Err?
  {
    var rs := Parses(lines);
    CollectValues(rs);
    CollectFails(rs);
    if Get(lines).Err? {
      var i :| 0 <= i < |rs| && rs[i].Err?;
      assert Parse(lines[i]).Err?;
    }
  }

  /** A collected list holds each result's value at its position. */
  lemma {:induction false} CollectValues<T>(rs: seq<Result<T>>)
    ensures Collect(rs).Ok? ==> forall i | 0 <= i < |rs| :: rs[i] == Ok(Collect(rs).value[i])
  {
    if |rs| > 0 && Collect(rs).Ok? {
      var tail := rs[1..];
      CollectValues(tail);
      var vs := Collect(rs).value;
      assert vs == [rs[0].value] + Collect(tail).value;
      forall i | 0 <= i < |rs| ensures rs[i] == Ok(vs[i]) {
        if i > 0 {
          assert rs[i] == tail[i - 1];
        }
      }
    }
  }

  /** Collecting fails exactly when one of the results is an error. */
  lemma {:induction false} CollectFails<T>(rs: seq<Result<T>>)
    ensures Collect(rs).Err? <==> exists i | 0 <= i < |rs| :: rs[i].Err?
  {
    if |rs| > 0 {
      var tail := rs[1..];
      CollectFails(tail);
      if rs[0].Err? {
      } else if Collect(tail).Err? {
        var i :| 0 <= i < |tail| && tail[i].Err?;
        assert rs[i + 1] == tail[i];
      } else {
        forall i | 0 <= i < |rs| ensures rs[i].Ok? {
          if i > 0 {
            assert rs[i] == tail[i - 1];
          }
        }
      }
    }
  }

  /** `operator+=`: counters added field by field in their own width; major, minor
      and name are cleared. */
  function Add(a: Stat, b: Stat): (r: Stat)
    ensures r.major == 0 && r.minor == 0 && r.name == ""
    ensures forall i | 0 <= i < COUNTERS :: r.counters[i] == (a.counters[i] + b.counters[i]) % Width(i)
  {
    Stat(0, 0, "", seq(COUNTERS, i requires 0 <= i < COUNTERS => (a.counters[i] + b.counters[i]) % Width(i)))
  }

  /** The loop of `Stat("")`: start from the default record and add every physical
      disk, in order. */
  function Aggregate(stats: seq<Stat>): (r: Stat)
    ensures r.major == 0 && r.minor == 0 && r.name == ""
    ensures !Physical(r) && !Logical(r)
  {
    if |stats| == 0 then Default
    else
      var acc := Aggregate(stats[..|stats| - 1]);
      var last := stats[|stats| - 1];
      if Physical(last) then Add(acc, last) else acc
  }

  /** The physical disks of a list, in order. */
  function PhysicalOnly(stats: seq<Stat>): (r: seq<Stat>)
    ensures |r| <= |stats|
    ensures forall i | 0 <= i < |r| :: Physical(r[i])
  {
    if |stats| == 0 then []
    else
      var init := PhysicalOnly(stats[..|stats| - 1]);
      var last := stats[|stats| - 1];
      if Physical(last) then init + [last] else init
  }

  /** Exact sum of counter `i` over a list. */
  function SumAt(stats: seq<Stat>, i: nat): nat
    requires i < COUNTERS
  {
    if |stats| == 0 then 0 else SumAt(stats[..|stats| - 1], i) + stats[|stats| - 1].counters[i]
  }

  /** `strncasecmp(name, "/dev/", 5)` prefix stripping. */
  function StripDev(name: string): (r: string)
    ensures HasPrefixIgnoreCase(name, "/dev/") ==> r == name[5..]
    ensures !HasPrefixIgnoreCase(name, "/dev/") ==> r == name
  {
    if HasPrefixIgnoreCase(name, "/dev/") then name[5..] else name
  }

  /** `Stat(name)`: a named device reads the fifteen counters of its
      /sys/block/<name>/stat text (after a first `next`); an empty name sums the
      physical disks of /proc/diskstats. */
  function FromName(name: string, blockStat: string, diskstats: seq<string>): (r: Result<Stat>)
    requires |name| > 0 ==> CString(blockStat) && |blockStat| > 0
    requires |name| == 0 ==> Readable(diskstats)
    ensures |name| == 0 && Get(diskstats).Ok? ==> r == Ok(Aggregate(Get(diskstats).value))
    ensures |name| == 0 && Get(diskstats).Err? ==> r == Err(Get(diskstats).error)
    ensures |name| > 0 && r.Ok? ==> r.value.name == StripDev(name) && !Physical(r.value) && !Logical(r.value)
    ensures |name| > 0 && r.Err? ==>
      r.error == FormatError || r.error == "Unexpected format in /sys/block/" + StripDev(name) + "/stat"
  {
    if |name| > 0 then
      var p :- Next(blockStat, 0);
      var values := ScanCounters(blockStat, p, COUNTERS);
      if |values| != COUNTERS then Err("Unexpected format in /sys/block/" + StripDev(name) + "/stat")
      else Ok(Stat(0, 0, StripDev(name), Store(values)))
    else
      var stats :- Get(diskstats);
      Ok(Aggregate(stats))
  }

  /** The aggregate holds, for every counter, the sum over exactly the physical
      disks, in the counter's own width. */
  lemma {:induction false} AggregateSumsPhysical(stats: seq<Stat>)
    ensures forall i | 0 <= i < COUNTERS :: Aggregate(stats).counters[i] == SumAt(PhysicalOnly(stats), i) % Width(i)
  {
    if |stats| > 0 {
      var init := stats[..|stats| - 1];
      var last := stats[|stats| - 1];
      AggregateSumsPhysical(init);
      if Physical(last) {
        var po := PhysicalOnly(init);
        assert PhysicalOnly(stats) == po + [last];
        assert (po + [last])[..|po|] == po;
        forall i | 0 <= i < COUNTERS
          ensures Aggregate(stats).counters[i] == SumAt(PhysicalOnly(stats), i) % Width(i)
        {
          ModAddLeft(SumAt(po, i), last.counters[i], Width(i));
        }
      }
    }
  }

  /** Records that are not physical disks do not affect the aggregate. */
  lemma {:induction false} AggregateIgnoresOthers(stats: seq<Stat>)
    ensures Aggregate(stats) == Aggregate(PhysicalOnly(stats))
  {
    if |stats| > 0 {
      var init := stats[..|stats| - 1];
      var last := stats[|stats| - 1];
      var po := PhysicalOnly(init);
      AggregateIgnoresOthers(init);
      PhysicalOnlyIdempotent(init);
      if Physical(last) {
        assert (po + [last])[..|po|] == po;
      }
    }
  }

  lemma {:induction false} PhysicalOnlyIdempotent(stats: seq<Stat>)
    ensures PhysicalOnly(PhysicalOnly(stats)) == PhysicalOnly(stats)
  {
    if |stats| > 0 {
      var init := stats[..|stats| - 1];
      var last := stats[|stats| - 1];
      var po := PhysicalOnly(init);
      PhysicalOnlyIdempotent(init);
      if Physical(last) {
        assert (po + [last])[..|po|] == po;
      }
    }
  }

  lemma StripDevExamples(dev: string)
    ensures StripDev("/dev/" + dev) == dev
    ensures StripDev("/DEV/" + dev) == dev
    ensures StripDev(dev) == dev || HasPrefixIgnoreCase(dev, "/dev/")
  {
    assert ("/dev/" + dev)[..5] == "/dev/";
    assert ("/DEV/" + dev)[..5] == "/DEV/";
    assert Lower("/DEV/") == "/dev/";
    assert ("/dev/" + dev)[5..] == dev;
    assert ("/DEV/" + dev)[5..] == dev;
  }

  // ---- A line in /proc/diskstats layout, for the parse round trip. ----

  /** A token: non-empty, no blank, no NUL. */
  predicate Token(t: string) {
    |t| > 0 && CString(t) && forall k | 0 <= k < |t| :: !IsSpace(t[k])
  }

  /** Tokens each preceded by one blank: " t0 t1 t2 ...". */
  function Line(toks: seq<string>): string {
    if |toks| == 0 then "" else " " + toks[0] + Line(toks[1..])
  }

  /** Start of token `i` in `Line(toks)`. */
  function Pos(toks: seq<string>, i: nat): nat
    requires i <= |toks|
  {
    |Line(toks[..i])| + 1
  }

  lemma {:induction false} LineAppend(a: seq<string>, b: seq<string>)
    ensures Line(a + b) == Line(a) + Line(b)
  {
    if |a| == 0 {
      assert a + b == b;
    } else {
      assert (a + b)[1..] == a[1..] + b;
      LineAppend(a[1..], b);
    }
  }

  lemma LineSplit(toks: seq<string>, i: nat)
    requires i < |toks|
    ensures Line(toks) == Line(toks[..i]) + " " + toks[i] + Line(toks[i + 1..])
  {
    assert toks == toks[..i] + toks[i..];
    LineAppend(toks[..i], toks[i..]);
    assert toks[i..][1..] == toks[i + 1..];
  }

  lemma PosNext(toks: seq<string>, i: nat)
    requires i < |toks|
    ensures Pos(toks, i + 1) == Pos(toks, i) + |toks[i]| + 1
  {
    assert toks[..i + 1] == toks[..i] + [toks[i]];
    LineAppend(toks[..i], [toks[i]]);
    assert [toks[i]][1..] == [];
  }

  lemma LineLength(toks: seq<string>)
    ensures |Line(toks)| == Pos(toks, |toks|) - 1
  {
    assert toks[..|toks|] == toks;
  }

  lemma {:induction false} LineIsCString(toks: seq<string>)
    requires forall i | 0 <= i < |toks| :: Token(toks[i])
    ensures CString(Line(toks))
  {
    if |toks| > 0 {
      LineIsCString(toks[1..]);
    }
  }

  /** Around token `i`: a blank before it, its characters, then a blank or the end. */
  lemma LineAt(toks: seq<string>, i: nat)
    requires forall j | 0 <= j < |toks| :: Token(toks[j])
    requires i < |toks|
    ensures Pos(toks, i) + |toks[i]| <= |Line(toks)|
    ensures Line(toks)[Pos(toks, i) - 1] == ' '
    ensures Line(toks)[Pos(toks, i)..Pos(toks, i) + |toks[i]|] == toks[i]
    ensures forall k | Pos(toks, i) <= k < Pos(toks, i) + |toks[i]| :: !IsSpace(Line(toks)[k])
    ensures Pos(toks, i) + |toks[i]| < |Line(toks)| ==> Line(toks)[Pos(toks, i) + |toks[i]|] == ' '
    ensures Pos(toks, i) + |toks[i]| == |Line(toks)| <==> i + 1 == |toks|
  {
    var s := Line(toks);
    var p := Pos(toks, i);
    var t := toks[i];
    LineSplit(toks, i);
    var pre := Line(toks[..i]) + " ";
    var post := Line(toks[i + 1..]);
    assert |pre| == p;
    assert s == pre + t + post;
    assert s[p - 1] == ' ';
    assert s[p..p + |t|] == t;
    forall k | p <= k < p + |t|
      ensures !IsSpace(s[k])
    {
      assert s[k] == t[k - p];
    }
    if i + 1 < |toks| {
      assert post == " " + toks[i + 1] + Line(toks[i + 2..]);
      assert s[p + |t|] == post[0];
    } else {
      assert post == "";
    }
  }

  /** `next` from inside a word: past the word's remaining `w` characters and
      the `g` blanks after it. */
  lemma NextSkips(s: string, p: nat, w: nat, g: nat)
    requires CString(s) && p + w + g < |s| && g > 0
    requires forall k | p <= k < p + w :: !IsSpace(s[k])
    requires forall k | p + w <= k < p + w + g :: IsSpace(s[k])
    requires !IsSpace(s[p + w + g])
    ensures Next(s, p) == Ok(p + w + g)
  {
    assert IsTokenStart(s, p + w + g);
  }

  lemma NextInLine(toks: seq<string>, i: nat)
    requires forall j | 0 <= j < |toks| :: Token(toks[j])
    requires i + 1 < |toks|
    ensures CString(Line(toks)) && Pos(toks, i) < |Line(toks)|
    ensures Next(Line(toks), Pos(toks, i)) == Ok(Pos(toks, i + 1))
  {
    LineIsCString(toks);
    LineAt(toks, i);
    LineAt(toks, i + 1);
    PosNext(toks, i);
    NextSkips(Line(toks), Pos(toks, i), |toks[i]|, 1);
  }

  lemma NextFromStart(toks: seq<string>)
    requires forall j | 0 <= j < |toks| :: Token(toks[j])
    requires |toks| > 0
    ensures CString(Line(toks)) && |Line(toks)| > 0
    ensures Next(Line(toks), 0) == Ok(Pos(toks, 0))
  {
    LineIsCString(toks);
    LineAt(toks, 0);
    assert toks[..0] == [];
    NextSkips(Line(toks), 0, 0, 1);
  }

  predicate AllDigits(t: string) {
    forall k | 0 <= k < |t| :: IsDigit(t[k])
  }

  /** Decimal value of a digit token. */
  function TokenValue(t: string): nat {
    if AllDigits(t) then DecimalValue(t) else 0
  }

  /** A digit token in a line converts to its decimal value. */
  lemma DigitsInLine(toks: seq<string>, i: nat)
    requires forall j | 0 <= j < |toks| :: Token(toks[j])
    requires i < |toks| && AllDigits(toks[i])
    ensures Pos(toks, i) + |toks[i]| <= |Line(toks)|
    ensures DigitEnd(Line(toks), Pos(toks, i)) == Pos(toks, i) + |toks[i]|
    ensures Atoi(Line(toks), Pos(toks, i)) == DecimalValue(toks[i])
  {
    var s := Line(toks);
    var p := Pos(toks, i);
    LineAt(toks, i);
    forall k | p <= k < p + |toks[i]|
      ensures IsDigit(s[k])
    {
      assert s[k] == s[p..p + |toks[i]|][k - p];
    }
  }

  /** The values of the `n` tokens from `j` on. */
  function TokenValues(toks: seq<string>, j: nat, n: nat): (r: seq<nat>)
    requires j + n <= |toks|
    ensures |r| == n
    ensures forall m | 0 <= m < n :: r[m] == TokenValue(toks[j + m])
  {
    seq<nat>(n, m requires 0 <= m < n => TokenValue(toks[j + m]))
  }

  function Min(a: nat, b: nat): nat {
    if a < b then a else b
  }

  /** Repeated conversions follow a chain of positions `bs`, each conversion
      reading `vs[m]` and moving on to `bs[m + 1]`, until one fails. */
  lemma {:induction false} ScanChain(s: string, bs: seq<nat>, vs: seq<nat>, i: nat, k: nat)
    requires |bs| == |vs| + 1 && i <= |vs|
    requires forall m | 0 <= m < |bs| :: bs[m] <= |s|
    requires forall m | 0 <= m < |vs| :: ScanUnsigned(s, bs[m]) == Some((vs[m], bs[m + 1]))
    requires ScanUnsigned(s, bs[|vs|]).None?
    ensures ScanCounters(s, bs[i], k) == vs[i..i + Min(k, |vs| - i)]
    decreases k
  {
    if k > 0 && i < |vs| {
      ScanChain(s, bs, vs, i + 1, k - 1);
      assert vs[i..i + Min(k, |vs| - i)] == [vs[i]] + vs[i + 1..i + 1 + Min(k - 1, |vs| - (i + 1))];
    }
  }

  /** Where each conversion starts: at token `j`, then at the blank before each
      later token, and finally at the end of the line. */
  function ScanStarts(toks: seq<string>, j: nat): (r: seq<nat>)
    requires j < |toks|
    ensures |r| == |toks| - j + 1
    ensures r[0] == Pos(toks, j)
    ensures forall m | 0 < m < |r| :: r[m] == Pos(toks, j + m) - 1
  {
    [Pos(toks, j)] + seq(|toks| - j, m requires 0 <= m < |toks| - j => |Line(toks[..j + m + 1])|)
  }

  /** `sscanf` over the digit tokens from `j` on reads them in order, and stops
      at the end of the line. */
  lemma ScanInLine(toks: seq<string>, j: nat, k: nat)
    requires forall m | 0 <= m < |toks| :: Token(toks[m])
    requires j < |toks|
    requires forall m | j <= m < |toks| :: AllDigits(toks[m])
    ensures Pos(toks, j) <= |Line(toks)|
    ensures ScanCounters(Line(toks), Pos(toks, j), k) == TokenValues(toks, j, Min(k, |toks| - j))
  {
    var s := Line(toks);
    var n := |toks| - j;
    var bs := ScanStarts(toks, j);
    var vs := TokenValues(toks, j, n);
    forall m | 0 <= m < n
      ensures bs[m] <= |s|
      ensures ScanUnsigned(s, bs[m]) == Some((vs[m], bs[m + 1]))
    {
      ScanTokenAt(toks, j + m, bs[m]);
      PosNext(toks, j + m);
    }
    LineLength(toks);
    assert ScanUnsigned(s, bs[n]).None?;
    ScanChain(s, bs, vs, 0, k);
    assert vs[0..Min(k, n)] == TokenValues(toks, j, Min(k, n));
  }

  /** One conversion at token `j` (from it or from the blank before it). */
  lemma ScanTokenAt(toks: seq<string>, j: nat, b: nat)
    requires forall m | 0 <= m < |toks| :: Token(toks[m])
    requires j < |toks| && AllDigits(toks[j])
    requires b == Pos(toks, j) - 1 || b == Pos(toks, j)
    ensures b < |Line(toks)|
    ensures ScanUnsigned(Line(toks), b) == Some((TokenValue(toks[j]), Pos(toks, j) + |toks[j]|))
  {
    var s := Line(toks);
    var t := toks[j];
    var p := Pos(toks, j);
    LineAt(toks, j);
    SpaceSkip(s, b, p);
    DigitsInLine(toks, j);
    assert s[p..p + |t|] == t;
  }

  lemma ScanStep(s: string, b: nat, k: nat)
    requires b <= |s| && k > 0 && ScanUnsigned(s, b).Some?
    ensures ScanCounters(s, b, k) == [ScanUnsigned(s, b).value.0] + ScanCounters(s, ScanUnsigned(s, b).value.1, k - 1)
  {
  }

  lemma SpaceSkip(s: string, b: nat, p: nat)
    requires b <= p < |s| && p <= b + 1
    requires b < p ==> IsSpace(s[b])
    requires !IsSpace(s[p])
    ensures SpaceEnd(s, b) == p
  {
  }

  /** A record written out in /proc/diskstats layout: major, minor, name and the
      fifteen counters, each after one blank. */
  function Render(st: Stat): string {
    Line(RenderTokens(st))
  }

  function RenderTokens(st: Stat): (toks: seq<string>)
    ensures |toks| == 3 + COUNTERS
  {
    [NatToString(st.major), NatToString(st.minor), st.name]
      + seq(COUNTERS, i requires 0 <= i < COUNTERS => NatToString(st.counters[i]))
  }

  /** `parse` in terms of where its four `next` calls land and what the
      conversions read there. */
  lemma ParseAt(s: string, p0: nat, p1: nat, p2: nat, p3: nat, values: seq<nat>)
    requires CString(s) && |s| > 0
    requires p0 < p1 < p2 < p3 <= |s|
    requires Next(s, 0) == Ok(p0) && Next(s, p0) == Ok(p1)
    requires Next(s, p1) == Ok(p2) && Next(s, p2) == Ok(p3)
    requires ScanCounters(s, p3, COUNTERS) == values && |values| == COUNTERS
    ensures Parse(s).Ok?
    ensures Parse(s).value.major == Trunc16(Atoi(s, p0)) && Parse(s).value.minor == Trunc16(Atoi(s, p1))
    ensures Parse(s).value.name == s[p2..p3 - 1] && Parse(s).value.counters == Store(values)
  {
  }

  /** The four `next` calls of `parse` land on tokens 0 to 3 of a line. */
  lemma NextChain(toks: seq<string>)
    requires |toks| > 3
    requires forall m | 0 <= m < |toks| :: Token(toks[m])
    ensures CString(Line(toks)) && |Line(toks)| > 0
    ensures Pos(toks, 0) < Pos(toks, 1) < Pos(toks, 2) < Pos(toks, 3) <= |Line(toks)|
    ensures Next(Line(toks), 0) == Ok(Pos(toks, 0))
    ensures Next(Line(toks), Pos(toks, 0)) == Ok(Pos(toks, 1))
    ensures Next(Line(toks), Pos(toks, 1)) == Ok(Pos(toks, 2))
    ensures Next(Line(toks), Pos(toks, 2)) == Ok(Pos(toks, 3))
  {
    NextFromStart(toks);
    NextInLine(toks, 0);
    NextInLine(toks, 1);
    NextInLine(toks, 2);
  }

  /** The name `parse` cuts out, from token 2 to one before token 3, is token 2. */
  lemma NameSlice(toks: seq<string>)
    requires |toks| > 3
    requires forall m | 0 <= m < |toks| :: Token(toks[m])
    ensures Pos(toks, 2) <= Pos(toks, 3) - 1 <= |Line(toks)|
    ensures Line(toks)[Pos(toks, 2)..Pos(toks, 3) - 1] == toks[2]
  {
    LineAt(toks, 2);
    PosNext(toks, 2);
  }

  predicate Blanks(t: string) {
    forall j | 0 <= j < |t| :: IsSpace(t[j])
  }

  /** A name token followed by `g` blanks: the cut from it to one before the
      next token keeps `g - 1` of the blanks, so it equals the token exactly
      when a single blank separates the two. */
  lemma NameSliceBlanks(s: string, from: nat, w: nat, g: nat)
    requires CString(s) && from + w + g < |s| && w > 0 && g > 0
    requires forall k | from <= k < from + w :: !IsSpace(s[k])
    requires forall k | from + w <= k < from + w + g :: IsSpace(s[k])
    requires !IsSpace(s[from + w + g])
    ensures Next(s, from) == Ok(from + w + g)
    ensures s[from..from + w + g - 1] == s[from..from + w] + s[from + w..from + w + g - 1]
    ensures Blanks(s[from + w..from + w + g - 1])
    ensures s[from..from + w + g - 1] == s[from..from + w] <==> g == 1
  {
    NextSkips(s, from, w, g);
    assert s[from..from + w + g - 1] == s[from..from + w] + s[from + w..from + w + g - 1];
    if g > 1 {
      assert |s[from..from + w + g - 1]| != |s[from..from + w]|;
    }
  }

  /** A line with the three leading tokens but fewer than fifteen counters after
      them makes `parse` fail with the format error. */
  lemma ParseShortLine(toks: seq<string>)
    requires 3 < |toks| < 3 + COUNTERS
    requires forall m | 0 <= m < |toks| :: Token(toks[m])
    requires forall m | 3 <= m < |toks| :: AllDigits(toks[m])
    ensures CString(Line(toks)) && |Line(toks)| > 0
    ensures Parse(Line(toks)) == Err(FormatError)
  {
    NextChain(toks);
    ScanInLine(toks, 3, COUNTERS);
    assert Min(COUNTERS, |toks| - 3) < COUNTERS;
  }

  /** `parse` on a line of eighteen tokens: digit tokens 0, 1 and 3.. give major,
      minor and the counters, token 2 is the name. */
  lemma ParseLine(toks: seq<string>)
    requires |toks| == 3 + COUNTERS
    requires forall m | 0 <= m < |toks| :: Token(toks[m])
    requires AllDigits(toks[0]) && AllDigits(toks[1])
    requires forall m | 3 <= m < |toks| :: AllDigits(toks[m])
    ensures CString(Line(toks)) && |Line(toks)| > 0
    ensures Parse(Line(toks)).Ok?
    ensures Parse(Line(toks)).value.major == Trunc16(DecimalValue(toks[0]))
    ensures Parse(Line(toks)).value.minor == Trunc16(DecimalValue(toks[1]))
    ensures Parse(Line(toks)).value.name == toks[2]
    ensures Parse(Line(toks)).value.counters == Store(TokenValues(toks, 3, COUNTERS))
  {
    NextChain(toks);
    ScanInLine(toks, 3, COUNTERS);
    assert Min(COUNTERS, |toks| - 3) == COUNTERS;
    ParseAt(Line(toks), Pos(toks, 0), Pos(toks, 1), Pos(toks, 2), Pos(toks, 3), TokenValues(toks, 3, COUNTERS));
    ParseLineFields(toks);
  }

  lemma ParseLineFields(toks: seq<string>)
    requires |toks| == 3 + COUNTERS
    requires forall m | 0 <= m < |toks| :: Token(toks[m])
    requires AllDigits(toks[0]) && AllDigits(toks[1])
    ensures Pos(toks, 2) <= Pos(toks, 3) - 1 <= |Line(toks)|
    ensures Pos(toks, 1) <= |Line(toks)| && Atoi(Line(toks), Pos(toks, 0)) == DecimalValue(toks[0])
    ensures Atoi(Line(toks), Pos(toks, 1)) == DecimalValue(toks[1])
    ensures Line(toks)[Pos(toks, 2)..Pos(toks, 3) - 1] == toks[2]
  {
    DigitsInLine(toks, 0);
    DigitsInLine(toks, 1);
    NameSlice(toks);
  }

  /** `parse` reads back every field of a record written in /proc/diskstats layout:
      major, minor, the name (a single blank follows it) and the fifteen counters
      in order. */
  lemma ParseRender(st: Stat)
    requires Token(st.name)
    ensures CString(Render(st)) && |Render(st)| > 0
    ensures Parse(Render(st)) == Ok(st)
  {
    var toks := RenderTokens(st);
    forall m | 0 <= m < |toks|
      ensures Token(toks[m])
      ensures m != 2 ==> AllDigits(toks[m])
      ensures m != 2 ==> TokenValue(toks[m]) == if m == 0 then st.major else if m == 1 then st.minor else st.counters[m - 3]
    {
      if m != 2 {
        DigitsAreBraceFree(toks[m]);
        NatToStringRoundTrip(if m == 0 then st.major else if m == 1 then st.minor else st.counters[m - 3]);
      }
    }
    ParseLine(toks);
    var values := TokenValues(toks, 3, COUNTERS);
    assert values == st.counters;
    assert Store(values) == st.counters;
    StatFields(Parse(Line(toks)).value, st);
  }

  lemma StatFields(a: Stat, b: Stat)
    requires a.major == b.major && a.minor == b.minor && a.name == b.name && a.counters == b.counters
    ensures a == b
  {
  }
}

=== FILE: load_average.dfy ===
/** System load agent (`SysUsage::CPULoad`): one of the three load averages,
    as a percentage, classified against the default load states. */
module LoadAverage {
  import opened Wrappers
  import opened Word
  import opened Classifier

  /** The averaging periods, in minutes, in the order `getloadavg` returns them. */
  const Periods: seq<nat> := [1, 5, 15]

  const PeriodError: string := "The update time should be 1, 5 or 15 minutes"

  /** `setup(minutes)`: the index of the matching period; any other value is
      refused with `EINVAL`. */
  function Setup(minutes: u8): (r: Result<nat>)
    ensures r.Ok? ==> r.value < |Periods| && Periods[r.value] == minutes
    ensures r.Err? <==> minutes !in Periods
    ensures r.Err? ==> r.error == PeriodError
  {
    if minutes == 1 then Ok(0)
    else if minutes == 5 then Ok(1)
    else if minutes == 15 then Ok(2)
    else Err(PeriodError)
  }

  /** The periods select the three averages in order, and nothing else is
      accepted. */
  lemma SetupPeriods(minutes: u8)
    ensures Setup(1) == Ok(0) && Setup(5) == Ok(1) && Setup(15) == Ok(2)
    ensures Setup(minutes).Ok? ==> Setup(Periods[Setup(minutes).value]) == Setup(minutes)
    ensures Setup(0).Err? && Setup(10).Err? && Setup(60).Err?
  {
  }

  /** The default load states: four contiguous ranges 0-50-80-95-100. */
  const DefaultStates: seq<State<real>> := [
    State("good", 0.0, 50.0, Ready, "CPU usage is lower than 50%", ""),
    State("gt50", 50.0, 80.0, Warning, "CPU usage is higher than 50%", ""),
    State("gt90", 80.0, 95.0, Error, "CPU usage is higher than 80%", ""),
    State("full", 95.0, 100.0, Critical, "CPU usage is too high", "")
  ]

  /** The default table starts at 0, ends at 100, has no gaps, and its levels
      rise from ready to critical. */
  lemma DefaultStatesContiguous()
    ensures DefaultStates[0].from == 0.0 && DefaultStates[|DefaultStates| - 1].to == 100.0
    ensures forall i | 0 < i < |DefaultStates| :: DefaultStates[i].from == DefaultStates[i - 1].to
    ensures forall i | 0 <= i < |DefaultStates| :: DefaultStates[i].from < DefaultStates[i].to
    ensures DefaultStates[0].level == Ready && DefaultStates[3].level == Critical
  {
  }

  /** The agent: which average it reports and the classification state. */
  datatype Load = Load(period: nat, agent: Agent<real>)

  predicate ValidLoad(l: Load) {
    l.period < |Periods| && Valid(l.agent)
  }

  /** The constructor: `setup` then the default states; nothing is active yet. */
  function New(minutes: u8): (r: Result<Load>)
    ensures r.Err? <==> minutes !in Periods
    ensures r.Ok? ==> ValidLoad(r.value) && Periods[r.value.period] == minutes
    ensures r.Ok? ==> r.value.agent == Agent(DefaultStates, None)
  {
    var period :- Setup(minutes);
    Ok(Load(period, Agent(DefaultStates, None)))
  }

  /** The three averages `getloadavg` reports, or `None` when it fails. */
  type Sample = Option<seq<real>>

  /** `CPULoad::get`: the selected average times 100, with no division by the
      number of cores and no upper clamp, classified as `set` does. */
  function Get(l: Load, compare: (real, real, real) -> bool, sample: Sample): (r: Result<(Load, Signal, real)>)
    requires ValidLoad(l)
    requires sample.Some? ==> |sample.value| == |Periods|
    ensures r.Err? <==> sample.None?
    ensures r.Ok? ==> r.value.2 == sample.value[l.period] * 100.0
    ensures r.Ok? ==> r.value.0.period == l.period && ValidLoad(r.value.0)
    ensures r.Ok? ==> (r.value.0.agent, r.value.1, r.value.2) == Set(l.agent, compare, r.value.2)
  {
    match sample
    case None => Err("Can't get system load averagres")
    case Some(avg) =>
      var rc := avg[l.period] * 100.0;
      match FirstMatch(l.agent.states, compare, rc, 0)
      case None => Ok((l, Untouched, rc))
      case Some(m) =>
        if l.agent.active != Some(m) then Ok((Load(l.period, Agent(l.agent.states, Some(m))), Updated(true), rc))
        else Ok((l, Updated(false), rc))
  }

  /** `find_state`: the active state. */
  function FindState(l: Load): (r: Option<State<real>>)
    requires ValidLoad(l)
    ensures r.Some? <==> l.agent.active.Some?
    ensures r.Some? ==> r.value == l.agent.states[l.agent.active.value]
  {
    Classifier.FindState(l.agent)
  }

  /** `append_state`: states cannot be added to this agent (the XML node it is
      given is not modelled). */
  function AppendState(l: Load): (r: Result<Load>)
    ensures r.Err? && r.error == "Not implemented"
  {
    Err("Not implemented")
  }

  /** Assuming half-open ranges: a load of 0.25 is "good", 0.5 exactly enters
      "gt50" with a change, and a load above one per period (over 100%) matches
      no default state, so nothing is signalled. */
  lemma DefaultClassification(l: Load)
    requires ValidLoad(l) && l.agent == Agent(DefaultStates, None)
    ensures var r := Get(l, HalfOpen, Some([0.25, 0.5, 0.5]));
            r.Ok? && (l.period == 0 ==> r.value.0.agent.active == Some(0) && r.value.1 == Updated(true))
    ensures var r := Get(l, HalfOpen, Some([0.5, 0.5, 0.5]));
            r.Ok? && r.value.0.agent.active == Some(1) && r.value.1 == Updated(true)
    ensures var r := Get(l, HalfOpen, Some([1.5, 1.5, 1.5]));
            r.Ok? && r.value.2 == 150.0 && r.value.1 == Untouched && r.value.0 == l
  {
    DefaultLowLoad(l);
    DefaultHalfLoad(l);
    DefaultOverload(l);
  }

  lemma DefaultLowLoad(l: Load)
    requires ValidLoad(l) && l.agent == Agent(DefaultStates, None)
    ensures var r := Get(l, HalfOpen, Some([0.25, 0.5, 0.5]));
            r.Ok? && (l.period == 0 ==> r.value.0.agent.active == Some(0) && r.value.1 == Updated(true))
  {
    assert FirstMatch(DefaultStates, HalfOpen, 25.0, 0) == Some(0);
  }

  lemma DefaultHalfLoad(l: Load)
    requires ValidLoad(l) && l.agent == Agent(DefaultStates, None)
    ensures var r := Get(l, HalfOpen, Some([0.5, 0.5, 0.5]));
            r.Ok? && r.value.0.agent.active == Some(1) && r.value.1 == Updated(true)
  {
    assert !HalfOpen(DefaultStates[0].from, DefaultStates[0].to, 50.0);
    assert FirstMatch(DefaultStates, HalfOpen, 50.0, 0) == Some(1);
  }

  lemma DefaultOverload(l: Load)
    requires ValidLoad(l) && l.agent == Agent(DefaultStates, None)
    ensures var r := Get(l, HalfOpen, Some([1.5, 1.5, 1.5]));
            r.Ok? && r.value.2 == 150.0 && r.value.1 == Untouched && r.value.0 == l
  {
    assert FirstMatch(DefaultStates, HalfOpen, 150.0, 0) == None;
  }
}

=== FILE: mem_used.dfy ===
/** The memory use agent (`SysInfo::MemUsed::Agent`): the percentage of
    physical memory not available to programs, read from the "MemTotal" and
    "MemAvailable" fields of /proc/meminfo, classified against three bounds. */
module MemUsed {
  import opened Wrappers
  import opened Word
  import opened Text
  import opened Classifier
  import Percent

  /** The built-in states, used when the definition brings none. */
  const InternalStates: seq<Percent.Description> := [
    Percent.Description(80.0, "low", Ready, "Memory usage is lower than 80%", ""),
    Percent.Description(90.0, "medium", Warning, "Memory usage is lower than 90%", ""),
    Percent.Description(100.0, "high", Error, "Memory usage is higher than 90%", "")
  ]

  /** Unit letter `c` occurs from `p` on, with neither the other letter nor the
      terminator before it. */
  predicate FirstUnitLetter(s: string, p: nat, c: char, other: char) {
    exists k | p <= k < |s| :: s[k] == c && forall j | p <= j < k :: s[j] != other && s[j] != '\0'
  }

  /** The scale the unit scan applies: the first 'k' or 'M' from `p` on, before
      the terminator, multiplies by 1024 or 1024 * 1024; anything else leaves
      the value as it is. */
  function ScaleFrom(s: string, p: nat): (r: nat)
    requires p <= |s|
    ensures r == 1 || r == 1024 || r == 1048576
    ensures r == 1024 ==> exists k | p <= k < |s| :: s[k] == 'k'
    ensures r == 1048576 ==> exists k | p <= k < |s| :: s[k] == 'M'
    ensures (forall k | p <= k < |s| :: s[k] != 'k' && s[k] != 'M') ==> r == 1
    decreases |s| - p
  {
    if p == |s| || s[p] == '\0' then 1
    else if s[p] == 'k' then 1024
    else if s[p] == 'M' then 1048576
    else ScaleFrom(s, p + 1)
  }
  /** The scan stops at the first unit letter: 1024 means a 'k' comes before any
      'M' and the terminator, 1024 * 1024 an 'M' before any 'k' and the
      terminator. */
  lemma {:induction false} ScaleFromFirst(s: string, p: nat)
    requires p <= |s|
    ensures ScaleFrom(s, p) == 1024 ==> FirstUnitLetter(s, p, 'k', 'M')
    ensures ScaleFrom(s, p) == 1048576 ==> FirstUnitLetter(s, p, 'M', 'k')
    decreases |s| - p
  {
    if p < |s| && s[p] != '\0' && s[p] != 'k' && s[p] != 'M' {
      ScaleFromFirst(s, p + 1);
      if ScaleFrom(s, p) == 1024 {
        var k :| p + 1 <= k < |s| && s[k] == 'k' && forall j | p + 1 <= j < k :: s[j] != 'M' && s[j] != '\0';
        assert s[k] == 'k' && forall j | p <= j < k :: s[j] != 'M' && s[j] != '\0';
      }
      if ScaleFrom(s, p) == 1048576 {
        var k :| p + 1 <= k < |s| && s[k] == 'M' && forall j | p + 1 <= j < k :: s[j] != 'k' && s[j] != '\0';
        assert s[k] == 'M' && forall j | p <= j < k :: s[j] != 'k' && s[j] != '\0';
      }
    } else if p < |s| && s[p] != '\0' {
      assert s[p] == 'k' || s[p] == 'M';
    }
  }


  /** `get_scaled`: `strtoull` on the value text, then the scale of the first
      unit letter after the number, in `unsigned long long` arithmetic. Without
      digits the conversion yields 0 and the scan starts at the beginning. */
  function Scaled(text: string): (r: u64)
    ensures ScanUnsigned(text, 0).None? ==> r == 0
    ensures ScanUnsigned(text, 0).Some? && ScanUnsigned(text, 0).value.0 == 0 ==> r == 0
  {
    match ScanUnsigned(text, 0)
    case None => 0
    case Some((v, e)) => (Saturate64(v) * ScaleFrom(text, e)) % U64
  }

  /** Whitespace runs end where the text stops being blank. */
  lemma SpaceRun(s: string, p: nat, q: nat)
    requires p <= q <= |s|
    requires forall i | p <= i < q :: IsSpace(s[i])
    requires q == |s| || !IsSpace(s[q])
    ensures SpaceEnd(s, p) == q
    decreases q - p
  {
    if p < q {
      SpaceRun(s, p + 1, q);
    }
  }

  /** Digit runs end where the text stops being a digit. */
  lemma DigitRun(s: string, p: nat, q: nat)
    requires p <= q <= |s|
    requires forall i | p <= i < q :: IsDigit(s[i])
    requires q == |s| || !IsDigit(s[q])
    ensures DigitEnd(s, p) == q
    decreases q - p
  {
    if p < q {
      DigitRun(s, p + 1, q);
    }
  }

  /** A /proc/meminfo value: blanks, a number in decimal, and a suffix that does
      not continue the number. The number is read back, and the suffix alone
      decides the scale. */
  lemma ScaledValue(blanks: string, n: nat, suffix: string)
    requires forall i | 0 <= i < |blanks| :: IsSpace(blanks[i])
    requires |suffix| > 0 ==> !IsDigit(suffix[0])
    requires n < U64
    ensures Scaled(blanks + NatToString(n) + suffix) == (n * ScaleFrom(suffix, 0)) % U64
  {
    var d := NatToString(n);
    var s := blanks + d + suffix;
    var b := |blanks|;
    var e := b + |d|;
    assert s[..b] == blanks;
    assert s[b..e] == d;
    assert e < |s| ==> s[e] == suffix[0];
    NatToStringRoundTrip(n);
    SuffixScale(blanks + d, suffix, 0);
    ScaledAt(s, b, e, n, ScaleFrom(suffix, 0));
  }

  /** The value read from a text that holds blanks up to `b` and the decimal
      digits of `n` from `b` to `e`. */
  lemma ScaledAt(s: string, b: nat, e: nat, n: nat, k: nat)
    requires b < e <= |s| && n < U64 && ScaleFrom(s, e) == k
    requires forall i | 0 <= i < b :: IsSpace(s[..b][i])
    requires forall i | 0 <= i < e - b :: IsDigit(s[b..e][i])
    requires DecimalValue(s[b..e]) == n
    requires e == |s| || !IsDigit(s[e])
    ensures Scaled(s) == (n * k) % U64
  {
    forall i | 0 <= i < b ensures IsSpace(s[i]) {
      assert s[i] == s[..b][i];
    }
    forall i | b <= i < e ensures IsDigit(s[i]) {
      assert s[i] == s[b..e][i - b];
    }
    assert s[b] == s[b..e][0];
    SpaceRun(s, 0, b);
    DigitRun(s, b, e);
  }

  /** The scale scan over a suffix does not depend on what precedes it. */
  lemma {:induction false} SuffixScale(prefix: string, suffix: string, p: nat)
    requires p <= |suffix|
    ensures ScaleFrom(prefix + suffix, |prefix| + p) == ScaleFrom(suffix, p)
    decreases |suffix| - p
  {
    if p < |suffix| {
      assert (prefix + suffix)[|prefix| + p] == suffix[p];
      SuffixScale(prefix, suffix, p + 1);
    }
  }

  /** Kilobytes and megabytes are scaled; the scan is case-sensitive, so "KB"
      and "GB" leave the number as it is. */
  lemma SuffixScales()
    ensures ScaleFrom(" kB", 0) == 1024
    ensures ScaleFrom(" MB", 0) == 1048576
    ensures ScaleFrom(" KB", 0) == 1
    ensures ScaleFrom(" GB", 0) == 1
    ensures ScaleFrom("", 0) == 1
  {
  }

  /** A typical line: "MemTotal:       16314428 kB" is read as that many KiB. */
  lemma KilobyteValue(blanks: string, n: nat)
    requires forall i | 0 <= i < |blanks| :: IsSpace(blanks[i])
    requires n * 1024 < U64
    ensures Scaled(blanks + NatToString(n) + " kB") == n * 1024
  {
    ScaledValue(blanks, n, " kB");
    SuffixScales();
    ModUnique(n * 1024, 0, n * 1024, U64);
  }

  /** `getValue`: the share of the total that is not available, in percent. */
  function UsedPercent(total: real, available: real): (r: real)
    requires total != 0.0
    ensures r * total == (total - available) * 100.0
    ensures 0.0 <= available <= total ==> 0.0 <= r <= 100.0
    ensures r == 0.0 <==> available == total
    ensures r == 100.0 <==> available == 0.0
  {
    ((total - available) * 100.0) / total
  }

  /** The percentage from the two /proc/meminfo value texts. */
  function MeminfoPercent(totalText: string, availableText: string): (r: real)
    requires Scaled(totalText) != 0
    ensures Scaled(availableText) <= Scaled(totalText) ==> 0.0 <= r <= 100.0
    ensures r * (Scaled(totalText) as real) == ((Scaled(totalText) as real) - (Scaled(availableText) as real)) * 100.0
  {
    ScaledPercent(Scaled(totalText), Scaled(availableText));
    UsedPercent(Scaled(totalText) as real, Scaled(availableText) as real)
  }

  /** The used percentage of two scaled counters, in terms of the counters. */
  lemma ScaledPercent(total: u64, available: u64)
    requires total != 0
    ensures available <= total ==> 0.0 <= UsedPercent(total as real, available as real) <= 100.0
    ensures UsedPercent(total as real, available as real) * (total as real) == ((total as real) - (available as real)) * 100.0
  {
  }

  /** The constructor: the states of the definition, or the built-in ones when
      it has none; nothing classified yet. */
  function New(defined: seq<State<real>>): (r: Agent<real>)
    ensures Valid(r) && r.active == None
    ensures |defined| > 0 ==> r.states == defined
    ensures |defined| == 0 ==> r.states == Percent.Ranges(InternalStates, 0.0)
  {
    Percent.Load(Agent(defined, None), InternalStates)
  }

  /** `Percent::get` with the memory value. */
  function Get(a: Agent<real>, compare: (real, real, real) -> bool, total: real, available: real): (r: (Agent<real>, Signal, real))
    requires Valid(a) && total != 0.0
    ensures r.2 * total == (total - available) * 100.0
    ensures r.0.states == a.states && Valid(r.0)
    ensures r.1 == Untouched <==> forall k | 0 <= k < |a.states| :: !Holds(compare, a.states[k], r.2)
    ensures r.1.Updated? ==> r.0.active.Some? && Holds(compare, a.states[r.0.active.value], r.2)
    ensures r.1.Updated? ==> (r.1.changed <==> r.0.active != a.active)
    ensures r == Classifier.Set(a, compare, UsedPercent(total, available))
  {
    Percent.Get(a, compare, UsedPercent(total, available))
  }

  /** Assuming half-open ranges, the built-in states are [0, 80), [80, 90) and
      [90, 100): 85% is "medium", a full memory matches no state. */
  lemma InternalClassification()
    ensures var a := New([]);
            a.states[0].from == 0.0 && a.states[0].to == 80.0 &&
            a.states[1].from == 80.0 && a.states[1].to == 90.0 &&
            a.states[2].from == 90.0 && a.states[2].to == 100.0
    ensures var r := Get(New([]), HalfOpen, 100.0, 15.0);
            r.1 == Updated(true) && r.0.states[r.0.active.value].name == "medium"
    ensures Get(New([]), HalfOpen, 100.0, 0.0).1 == Untouched
  {
    var a := New([]);
    Percent.RangesContiguous(InternalStates, 0.0);
    assert UsedPercent(100.0, 15.0) == 85.0;
    assert FirstMatch(a.states, HalfOpen, 85.0, 0) == Some(1);
    assert UsedPercent(100.0, 0.0) == 100.0;
  }
}

=== FILE: percent.dfy ===
/** Percentage agents (`SysInfo::Percent`): states built from a list of upper
    bounds, classification of the produced value, and the "Undefined" state
    the agent starts in. */
module Percent {
  import opened Wrappers
  import opened Classifier

  /** `Percent::StateDescription`: an upper bound and the state's texts. */
  datatype Description = Description(value: real, name: string, level: Level, summary: string, body: string)

  /** The state every percentage agent starts in; it is not one of its states. */
  const Undefined: State<real> := State("Undefined", 0.0, 0.0, Unimportant, "", "")

  /** The constructor: no states yet, the undefined state active. */
  const New: Agent<real> := Agent([], None)

  /** `find_state`: the active state, "Undefined" until a value was classified. */
  function FindState(a: Agent<real>): (r: State<real>)
    requires Valid(a)
    ensures a.active.None? ==> r == Undefined
    ensures a.active.Some? ==> r == a.states[a.active.value]
  {
    match Classifier.FindState(a)
    case None => Undefined
    case Some(st) => st
  }

  /** The ranges of `load`: each state runs from where the previous one ended
      (from `from` for the first) up to its own bound. */
  function Ranges(descs: seq<Description>, from: real): (r: seq<State<real>>)
    ensures |r| == |descs|
    ensures |r| > 0 ==> r[0].from == from
    ensures forall i | 0 <= i < |r| :: r[i].to == descs[i].value
    ensures forall i | 0 <= i < |r| :: r[i].name == descs[i].name && r[i].level == descs[i].level
    ensures forall i | 0 <= i < |r| :: r[i].summary == descs[i].summary && r[i].body == descs[i].body
  {
    if |descs| == 0 then []
    else
      var d := descs[0];
      var rest := Ranges(descs[1..], d.value);
      assert forall i | 1 <= i < |descs| :: descs[1..][i - 1] == descs[i];
      [State(d.name, from, d.value, d.level, d.summary, d.body)] + rest
  }

  /** The ranges are contiguous: every state after the first starts at the bound
      of the one before it. */
  lemma {:induction false} RangesContiguous(descs: seq<Description>, from: real)
    ensures forall i | 0 < i < |descs| :: Ranges(descs, from)[i].from == descs[i - 1].value
  {
    if |descs| > 0 {
      var r := Ranges(descs, from);
      var rest := Ranges(descs[1..], descs[0].value);
      RangesContiguous(descs[1..], descs[0].value);
      assert r == [r[0]] + rest;
      forall i | 0 < i < |descs| ensures r[i].from == descs[i - 1].value {
        assert r[i] == rest[i - 1];
        if i > 1 {
          assert descs[1..][i - 2] == descs[i - 1];
        }
      }
    }
  }

  /** `load(states, length)`: does nothing when the agent already has states;
      otherwise its states are the ranges from 0. */
  function Load(a: Agent<real>, descs: seq<Description>): (r: Agent<real>)
    requires Valid(a)
    ensures Valid(r) && r.active == a.active
    ensures |a.states| > 0 ==> r == a
    ensures |a.states| == 0 ==> r.states == Ranges(descs, 0.0)
  {
    if |a.states| > 0 then a else Agent(Ranges(descs, 0.0), a.active)
  }

  /** `Percent::get`: classify the produced value as `SysInfo::Agent::set`
      does, and return it unchanged. */
  function Get(a: Agent<real>, compare: (real, real, real) -> bool, value: real): (r: (Agent<real>, Signal, real))
    requires Valid(a)
    ensures r == Set(a, compare, value)
  {
    match FirstMatch(a.states, compare, value, 0)
    case None => (a, Untouched, value)
    case Some(m) =>
      if a.active != Some(m) then (Agent(a.states, Some(m)), Updated(true), value)
      else (a, Updated(false), value)
  }

  /** A freshly loaded agent reports a change at the first value it can classify,
      and from then on `find_state` is one of its states. */
  lemma FirstClassificationChanges(descs: seq<Description>, compare: (real, real, real) -> bool, value: real)
    requires exists k | 0 <= k < |descs| :: Holds(compare, Ranges(descs, 0.0)[k], value)
    ensures var r := Get(Load(New, descs), compare, value);
            r.1 == Updated(true) && r.0.active.Some? && FindState(r.0) in r.0.states
  {
    var a := Load(New, descs);
    var k :| 0 <= k < |descs| && Holds(compare, Ranges(descs, 0.0)[k], value);
    SetFromInitial(a.states, compare, value, k);
  }
}

=== FILE: swap_used.dfy ===
/** Swap usage agent (`SysInfo::SwapUsed`): the used share of swap space,
    classified against its default states. */
module SwapUsed {
  import opened Wrappers
  import opened Classifier

  /** The default swap states: 0-10-80-90-100; the first two are both "low". */
  const DefaultStates: seq<State<real>> := [
    State("low", 0.0, 10.0, Ready, "Swap usage is lower than 10%", ""),
    State("low", 10.0, 80.0, Ready, "Swap usage is lower than 80%", ""),
    State("medium", 80.0, 90.0, Warning, "Swap usage is lower than 90%", ""),
    State("high", 90.0, 100.0, Error, "Swap usage is higher than 90%", "")
  ]

  /** The default table covers 0 to 100 without gaps. */
  lemma DefaultStatesContiguous()
    ensures DefaultStates[0].from == 0.0 && DefaultStates[|DefaultStates| - 1].to == 100.0
    ensures forall i | 0 < i < |DefaultStates| :: DefaultStates[i].from == DefaultStates[i - 1].to
    ensures DefaultStates[0].name == DefaultStates[1].name && DefaultStates[0] != DefaultStates[1]
  {
  }

  /** Used swap in percent of the total. The source divides without checking
      the total, so it is required non-zero here. */
  function UsedPercent(free: real, total: real): (r: real)
    requires total != 0.0
    ensures r * total == (total - free) * 100.0
    ensures 0.0 <= free <= total ==> 0.0 <= r <= 100.0
    ensures total > 0.0 ==> (r == 0.0 <==> free == total)
    ensures total > 0.0 ==> (r == 100.0 <==> free == 0.0)
  {
    (total - free) * 100.0 / total
  }

  /** `SwapUsed::get`: the percentage goes through `set`. */
  function Get(a: Agent<real>, compare: (real, real, real) -> bool, free: real, total: real): (r: (Agent<real>, Signal, real))
    requires Valid(a) && total != 0.0
    ensures r.2 * total == (total - free) * 100.0 && Valid(r.0) && r.0.states == a.states
    ensures r.1 == Untouched <==> forall k | 0 <= k < |a.states| :: !Holds(compare, a.states[k], r.2)
    ensures r == Set(a, compare, UsedPercent(free, total))
  {
    Set(a, compare, UsedPercent(free, total))
  }

  /** Assuming half-open ranges: going from 5% to 50% swap used moves from the
      first "low" state to the second one, which is reported as a change
      although the name stays "low". */
  lemma LowToLowIsAChange()
    ensures var first := Get(Agent(DefaultStates, None), HalfOpen, 950.0, 1000.0);
            var second := Get(first.0, HalfOpen, 500.0, 1000.0);
            first.0.active == Some(0) &&
            second.0.active == Some(1) && second.1 == Updated(true) &&
            DefaultStates[first.0.active.value].name == DefaultStates[second.0.active.value].name
  {
    assert UsedPercent(950.0, 1000.0) == 5.0;
    assert UsedPercent(500.0, 1000.0) == 50.0;
    assert FirstMatch(DefaultStates, HalfOpen, 5.0, 0) == Some(0);
    assert FirstMatch(DefaultStates, HalfOpen, 50.0, 0) == Some(1);
  }
}

=== FILE: sys_stat_agent.dfy ===
/** The "system-stat" agent: per-category tick deltas between two reads of
    /proc/stat, with a decrease clamped to zero. */
module SysStatAgent {
  import opened Wrappers
  import opened Word

  /** The categories tracked, in /proc/stat column order. */
  const Categories: seq<string> := ["user", "nice", "system", "idle", "iowait", "irq", "softirq"]

  /** Saved readings of the last cycle and the (percent) values reported. */
  datatype Agent = Agent(saved: seq<u64>, values: seq<real>)

  predicate Valid(a: Agent) {
    |a.saved| == |Categories| && |a.values| == |Categories|
  }

  /** The constructor: refuses a zero update interval, then zeroes the values and
      saves the first reading. */
  function New(updateInterval: nat, reading: seq<u64>): (r: Result<Agent>)
    requires |reading| == |Categories|
    ensures r.Err? <==> updateInterval == 0
    ensures r.Ok? ==> Valid(r.value) && r.value.saved == reading
    ensures r.Ok? ==> forall i | 0 <= i < |Categories| :: r.value.values[i] == 0.0
  {
    if updateInterval == 0 then Err("System stats requires an update timer")
    else Ok(Agent(reading, seq(|Categories|, _ => 0.0)))
  }

  /** Per-field delta with the reset policy of this agent: a counter that went
      down counts as no progress. */
  function ClampedDelta(current: u64, saved: u64): (d: u64)
    ensures d <= current
    ensures current >= saved ==> saved + d == current
    ensures current < saved ==> d == 0
  {
    if current >= saved then current - saved else 0
  }

  /** `refresh()`: computes every clamped delta, saves the raw reading (also when a
      reset was clamped), leaves the values alone and reports an update. */
  method Refresh(a: Agent, reading: seq<u64>) returns (next: Agent, deltas: seq<u64>, updated: bool)
    requires Valid(a) && |reading| == |Categories|
    ensures Valid(next)
    ensures next.saved == reading
    ensures next.values == a.values
    ensures |deltas| == |Categories|
    ensures forall i | 0 <= i < |Categories| ::
      (reading[i] >= a.saved[i] ==> deltas[i] as int == reading[i] as int - a.saved[i] as int) &&
      (reading[i] < a.saved[i] ==> deltas[i] == 0)
    ensures updated
  {
    var current := reading;
    var saved := a.saved;
    var ix := 0;
    while ix < |Categories|
      invariant 0 <= ix <= |Categories|
      invariant |current| == |saved| == |Categories|
      invariant saved[..ix] == reading[..ix] && saved[ix..] == a.saved[ix..]
      invariant current[ix..] == reading[ix..]
      invariant forall i | 0 <= i < ix :: current[i] == ClampedDelta(reading[i], a.saved[i])
    {
      var up := current[ix];
      if current[ix] >= saved[ix] {
        current := current[ix := current[ix] - saved[ix]];
      } else {
        current := current[ix := 0];
      }
      saved := saved[ix := up];
      ix := ix + 1;
    }
    assert saved == saved[..ix];
    assert reading == reading[..ix];
    next := Agent(saved, a.values);
    deltas := current;
    updated := true;
  }

  /** The two reset policies side by side: where the counter went down, this agent
      reports 0 while `System::Stat::operator-=` wraps to a large positive value;
      otherwise both give the plain difference. */
  lemma ClampVersusWrap(current: u64, saved: u64)
    ensures current < saved ==> ClampedDelta(current, saved) == 0 && Sub64(current, saved) > 0
    ensures current >= saved ==> ClampedDelta(current, saved) == Sub64(current, saved)
  {
  }
}

=== FILE: text.dfy ===
/** Character and string helpers standing in for the C library calls the code makes:
    `isspace`, `strcasecmp`, `strncasecmp`, decimal conversion, `std::to_string`,
    `std::string::find` and `std::string::replace`. Only the C locale is modelled. */
module Text {
  import opened Wrappers

  /** `isspace` in the C locale. */
  predicate IsSpace(c: char) {
    c == ' ' || c == '\t' || c == '\n' || c == '\U{000B}' || c == '\U{000C}' || c == '\r'
  }

  predicate IsDigit(c: char) {
    '0' <= c <= '9'
  }

  /** The characters of a C string before its terminator: no NUL inside. */
  predicate CString(s: string) {
    forall i | 0 <= i < |s| :: s[i] != '\0'
  }

  /** `tolower` in the C locale: only 'A'..'Z' change. */
  function ToLower(c: char): char {
    if 'A' <= c <= 'Z' then (c as int + 32) as char else c
  }

  function Lower(s: string): (r: string)
    ensures |r| == |s|
  {
    seq(|s|, i requires 0 <= i < |s| => ToLower(s[i]))
  }

  /** `strcasecmp(a, b) == 0` for NUL-free strings. */
  predicate EqualsIgnoreCase(a: string, b: string) {
    Lower(a) == Lower(b)
  }

  /** `strncasecmp(s, prefix, |prefix|) == 0` for NUL-free strings: a shorter `s`
      differs at its terminator. */
  predicate HasPrefixIgnoreCase(s: string, prefix: string) {
    |s| >= |prefix| && Lower(s[..|prefix|]) == Lower(prefix)
  }

  /** No opening brace: nothing left that could be a `{x}` placeholder. */
  predicate BraceFree(s: string) {
    forall i | 0 <= i < |s| :: s[i] != '{'
  }

  /** Value of a run of decimal digits. */
  function DecimalValue(ds: string): nat
    requires forall i | 0 <= i < |ds| :: IsDigit(ds[i])
  {
    if |ds| == 0 then 0
    else
      assert IsDigit(ds[|ds| - 1]);
      DecimalValue(ds[..|ds| - 1]) * 10 + (ds[|ds| - 1] as int - '0' as int)
  }

  /** End of the maximal run of digits starting at `p`. */
  function DigitEnd(s: string, p: nat): (q: nat)
    requires p <= |s|
    ensures p <= q <= |s|
    ensures forall i | p <= i < q :: IsDigit(s[i])
    ensures q < |s| ==> !IsDigit(s[q])
    decreases |s| - p
  {
    if p < |s| && IsDigit(s[p]) then DigitEnd(s, p + 1) else p
  }

  /** End of the maximal run of whitespace starting at `p`. */
  function SpaceEnd(s: string, p: nat): (q: nat)
    requires p <= |s|
    ensures p <= q <= |s|
    ensures forall i | p <= i < q :: IsSpace(s[i])
    ensures q < |s| ==> !IsSpace(s[q])
    decreases |s| - p
  {
    if p < |s| && IsSpace(s[p]) then SpaceEnd(s, p + 1) else p
  }

  /** One `%lu`/`%u` conversion of `sscanf` on decimal text: skip whitespace, read
      at least one digit. Yields the value read and the position after it. */
  function ScanUnsigned(s: string, p: nat): (r: Option<(nat, nat)>)
    requires p <= |s|
    ensures r.Some? ==> p < r.value.1 <= |s| && IsDigit(s[r.value.1 - 1])
    ensures r.None? <==> SpaceEnd(s, p) == |s| || !IsDigit(s[SpaceEnd(s, p)])
  {
    var b := SpaceEnd(s, p);
    var e := DigitEnd(s, b);
    if e == b then None else Some((DecimalValue(s[b..e]), e))
  }

  function DigitChar(d: nat): (c: char)
    requires d < 10
    ensures IsDigit(c)
  {
    ('0' as int + d) as char
  }

  /** `std::to_string` of a non-negative integer. */
  function NatToString(n: nat): (r: string)
    ensures |r| > 0
    ensures forall i | 0 <= i < |r| :: IsDigit(r[i])
    ensures n > 0 ==> r[0] != '0'
  {
    if n < 10 then [DigitChar(n)] else NatToString(n / 10) + [DigitChar(n % 10)]
  }

  lemma DigitsAreBraceFree(s: string)
    requires forall i | 0 <= i < |s| :: IsDigit(s[i])
    ensures BraceFree(s)
  {
  }

  /** `std::to_string` is undone by decimal conversion. */
  lemma {:induction false} NatToStringRoundTrip(n: nat)
    ensures DecimalValue(NatToString(n)) == n
  {
    var r := NatToString(n);
    if n >= 10 {
      NatToStringRoundTrip(n / 10);
      assert r[..|r| - 1] == NatToString(n / 10);
    }
  }

  /** `t` occurs in `s` starting at position `j`. */
  predicate OccursAt(s: string, t: string, j: nat) {
    j + |t| <= |s| && s[j..j + |t|] == t
  }

  /** First position at or after `k` where `t` occurs in `s` (`std::string::find`). */
  function IndexOfFrom(s: string, t: string, k: nat): (r: Option<nat>)
    requires k <= |s|
    ensures r.Some? ==> k <= r.value && OccursAt(s, t, r.value)
    ensures r.Some? ==> forall j | k <= j < r.value :: !OccursAt(s, t, j)
    ensures r.None? ==> forall j | k <= j :: !OccursAt(s, t, j)
    decreases |s| - k
  {
    if k + |t| > |s| then None
    else if s[k..k + |t|] == t then Some(k)
    else IndexOfFrom(s, t, k + 1)
  }

  function IndexOf(s: string, t: string): Option<nat> {
    IndexOfFrom(s, t, 0)
  }

  /** `pos = s.find(t); if (pos != npos) s.replace(pos, |t|, x);` */
  function ReplaceFirst(s: string, t: string, x: string): string {
    match IndexOf(s, t)
    case Some(p) => s[..p] + x + s[p + |t|..]
    case None => s
  }

  /** A placeholder (text starting with '{') does not occur in brace-free text,
      so replacing it changes nothing. */
  lemma ReplaceAbsent(s: string, t: string, x: string)
    requires BraceFree(s) && |t| > 0 && t[0] == '{'
    ensures ReplaceFirst(s, t, x) == s
  {
    forall j: nat | j + |t| <= |s|
      ensures !OccursAt(s, t, j)
    {
      assert s[j..j + |t|][0] == s[j];
    }
  }

  /** The first occurrence of a placeholder after brace-free text `a` is the one
      right after `a`. */
  lemma ReplaceAfterBraceFree(a: string, t: string, b: string, x: string)
    requires BraceFree(a) && |t| > 0 && t[0] == '{'
    ensures ReplaceFirst(a + t + b, t, x) == a + x + b
  {
    var s := a + t + b;
    assert OccursAt(s, t, |a|) by {
      assert s[|a|..|a| + |t|] == t;
    }
    forall j: nat | j < |a|
      ensures !OccursAt(s, t, j)
    {
      assert s[j..j + |t|][0] == a[j];
    }
    assert s[..|a|] == a;
    assert s[|a| + |t|..] == b;
  }
}

=== FILE: uptime.dfy ===
/** The uptime agent (`SysInfo::UpTime::Agent`): seconds since boot, told in
    words ("2 days, 3 hours and 1 minute") by filling a template chosen by
    which of days, hours and minutes are non-zero, and classified against the
    states of its definition. */
module Uptime {
  import opened Wrappers
  import opened Text
  import opened Classifier

  /** Piece of a template: literal text, or the placeholder at a position of
      `Tags`. */
  datatype Piece = Lit(text: string) | Slot(tag: nat)

  /** The placeholders, in the order the fill loop replaces them. */
  const Tags: seq<string> := ["{d}", "{D}", "{h}", "{H}", "{m}", "{M}"]

  /** Every slot of `ps` names one of `n` values. */
  predicate SlotsIn(ps: seq<Piece>, n: nat) {
    forall j | 0 <= j < |ps| :: ps[j].Slot? ==> ps[j].tag < n
  }

  /** A piece's text; a slot without a value stands for nothing. */
  function PieceText(p: Piece, vals: seq<string>): string {
    match p
    case Lit(t) => t
    case Slot(k) => if k < |vals| then vals[k] else ""
  }

  /** The text of the pieces with each slot standing for its value in `vals`. */
  function Render(ps: seq<Piece>, vals: seq<string>): string
    decreases |ps|
  {
    if |ps| == 0 then "" else PieceText(ps[0], vals) + Render(ps[1..], vals)
  }

  /** The template texts: literal parts and the placeholders in `Tags` order. */
  function Format(ps: seq<Piece>): string {
    Render(ps, Tags)
  }

  /** The shape every template has: brace-free literals and each placeholder at
      most once, in the order of `Tags`. */
  predicate WellFormed(ps: seq<Piece>) {
    SlotsIn(ps, |Tags|) &&
    (forall j | 0 <= j < |ps| :: ps[j].Lit? ==> BraceFree(ps[j].text)) &&
    (forall a, b | 0 <= a < b < |ps| && ps[a].Slot? && ps[b].Slot? :: ps[a].tag < ps[b].tag)
  }

  /** "{d} {D}", "{h} {H}" and "{m} {M}": an amount and its unit. */
  const DayPart: seq<Piece> := [Slot(0), Lit(" "), Slot(1)]
  const HourPart: seq<Piece> := [Slot(2), Lit(" "), Slot(3)]
  const MinutePart: seq<Piece> := [Slot(4), Lit(" "), Slot(5)]

  /** The template table, by key: 1 days, 2 hours, 4 minutes, and their sums. */
  const Templates: seq<(nat, seq<Piece>)> := [
    (1, DayPart),
    (2, HourPart),
    (3, DayPart + [Lit(" and ")] + HourPart),
    (4, MinutePart),
    (5, DayPart + [Lit(" and ")] + MinutePart),
    (6, HourPart + [Lit(" and ")] + MinutePart),
    (7, DayPart + [Lit(", ")] + HourPart + [Lit(" and ")] + MinutePart)
  ]

  /** The table spells the format strings of the source. */
  lemma TemplateTexts()
    ensures Format(Templates[0].1) == "{d} {D}"
    ensures Format(Templates[1].1) == "{h} {H}"
    ensures Format(Templates[2].1) == "{d} {D} and {h} {H}"
    ensures Format(Templates[3].1) == "{m} {M}"
    ensures Format(Templates[4].1) == "{d} {D} and {m} {M}"
    ensures Format(Templates[5].1) == "{h} {H} and {m} {M}"
    ensures Format(Templates[6].1) == "{d} {D}, {h} {H} and {m} {M}"
  {
    PartFormats();
    PairFormat(DayPart, HourPart, "{d} {D}", "{h} {H}", "{d} {D} and {h} {H}");
    PairFormat(DayPart, MinutePart, "{d} {D}", "{m} {M}", "{d} {D} and {m} {M}");
    PairFormat(HourPart, MinutePart, "{h} {H}", "{m} {M}", "{h} {H} and {m} {M}");
    TripleFormat();
  }

  lemma PairFormat(a: seq<Piece>, b: seq<Piece>, x: string, y: string, r: string)
    requires Render(a, Tags) == x && Render(b, Tags) == y && r == x + " and " + y
    ensures Format(a + [Lit(" and ")] + b) == r
  {
    PairText(a, b, Tags);
  }

  lemma TripleFormat()
    ensures Format(DayPart + [Lit(", ")] + HourPart + [Lit(" and ")] + MinutePart) == "{d} {D}, {h} {H} and {m} {M}"
  {
    PartFormats();
    TripleText(DayPart, HourPart, MinutePart, Tags);
    var d, h, m := "{d} {D}", "{h} {H}", "{m} {M}";
    assert d + ", " + h + " and " + m == "{d} {D}, {h} {H} and {m} {M}";
  }

  lemma PartFormats()
    ensures Render(DayPart, Tags) == "{d} {D}"
    ensures Render(HourPart, Tags) == "{h} {H}"
    ensures Render(MinutePart, Tags) == "{m} {M}"
  {
    PartTexts(Tags);
  }

  lemma RenderLit(t: string, vals: seq<string>)
    ensures Render([Lit(t)], vals) == t
  {
    assert [Lit(t)][1..] == [];
  }

  /** Two parts joined by " and ". */
  lemma PairText(a: seq<Piece>, b: seq<Piece>, vals: seq<string>)
    ensures Render(a + [Lit(" and ")] + b, vals) == Render(a, vals) + " and " + Render(b, vals)
  {
    var and := [Lit(" and ")];
    RenderLit(" and ", vals);
    RenderConcat(a + and, b, vals);
    RenderConcat(a, and, vals);
  }

  /** Three parts: "a, b and c". */
  lemma TripleText(a: seq<Piece>, b: seq<Piece>, c: seq<Piece>, vals: seq<string>)
    ensures Render(a + [Lit(", ")] + b + [Lit(" and ")] + c, vals) == Render(a, vals) + ", " + Render(b, vals) + " and " + Render(c, vals)
  {
    var comma := [Lit(", ")];
    var and := [Lit(" and ")];
    RenderLit(", ", vals);
    RenderLit(" and ", vals);
    RenderConcat(a + comma + b + and, c, vals);
    RenderConcat(a + comma + b, and, vals);
    RenderConcat(a + comma, b, vals);
    RenderConcat(a, comma, vals);
  }

  lemma {:induction false} RenderConcat(a: seq<Piece>, b: seq<Piece>, vals: seq<string>)
    ensures Render(a + b, vals) == Render(a, vals) + Render(b, vals)
    decreases |a|
  {
    if |a| > 0 {
      assert (a + b)[1..] == a[1..] + b;
      RenderConcat(a[1..], b, vals);
    } else {
      assert a + b == b;
    }
  }

  /** The three amount templates rendered. */
  lemma PartTexts(vals: seq<string>)
    requires |vals| == |Tags|
    ensures Render(DayPart, vals) == vals[0] + " " + vals[1]
    ensures Render(HourPart, vals) == vals[2] + " " + vals[3]
    ensures Render(MinutePart, vals) == vals[4] + " " + vals[5]
  {
    Render3(Slot(0), Lit(" "), Slot(1), vals);
    Render3(Slot(2), Lit(" "), Slot(3), vals);
    Render3(Slot(4), Lit(" "), Slot(5), vals);
  }

  lemma Render3(a: Piece, b: Piece, c: Piece, vals: seq<string>)
    ensures Render([a, b, c], vals) == PieceText(a, vals) + PieceText(b, vals) + PieceText(c, vals)
  {
    assert [c][1..] == [];
    assert Render([c], vals) == PieceText(c, vals);
    assert [b, c][1..] == [c];
    assert Render([b, c], vals) == PieceText(b, vals) + PieceText(c, vals);
    assert [a, b, c][1..] == [b, c];
  }

  /** The first template from `ix` on with the given key. */
  function FindTemplate(key: nat, ix: nat): (r: Option<seq<Piece>>)
    requires ix <= |Templates|
    ensures r.Some? ==> exists j | ix <= j < |Templates| :: Templates[j].0 == key && Templates[j].1 == r.value
    ensures r.None? <==> forall j | ix <= j < |Templates| :: Templates[j].0 != key
    decreases |Templates| - ix
  {
    if ix == |Templates| then None
    else if Templates[ix].0 == key then Some(Templates[ix].1)
    else FindTemplate(key, ix + 1)
  }

  /** The replacement loop: for each tag in order, its first occurrence (if any)
      is replaced by its value. */
  function FillFrom(s: string, vals: seq<string>, i: nat): string
    requires |vals| == |Tags| && i <= |Tags|
    decreases |Tags| - i
  {
    if i == |Tags| then s else FillFrom(ReplaceFirst(s, Tags[i], vals[i]), vals, i + 1)
  }

  function Fill(s: string, vals: seq<string>): string
    requires |vals| == |Tags|
  {
    FillFrom(s, vals, 0)
  }

  /** Whole days, remaining hours and remaining minutes of `u` seconds. */
  function Decompose(u: int): (r: (nat, nat, nat))
    requires u >= 0
    ensures r.1 < 24 && r.2 < 60
    ensures r.0 * 86400 + r.1 * 3600 + r.2 * 60 <= u < r.0 * 86400 + r.1 * 3600 + r.2 * 60 + 60
  {
    var d := u / 86400;
    var h := (u - d * 86400) / 3600;
    var m := (u - d * 86400 - h * 3600) / 60;
    (d, h, m)
  }

  /** The values of the six placeholders. */
  function Values(d: nat, h: nat, m: nat): (r: seq<string>)
    ensures |r| == |Tags|
  {
    [NatToString(d), if d > 1 then "days" else "day",
     NatToString(h), if h > 1 then "hours" else "hour",
     NatToString(m), if m > 1 then "minutes" else "minute"]
  }

  /** The key of the template: 1 for days, 2 for hours, 4 for minutes. */
  function Key(d: nat, h: nat, m: nat): (k: nat)
    ensures k <= 7
    ensures k == 0 <==> d == 0 && h == 0 && m == 0
  {
    (if d > 0 then 1 else 0) + (if h > 0 then 2 else 0) + (if m > 0 then 4 else 0)
  }

  /** `to_string`: under a minute a fixed text; otherwise the template of the key
      filled with the values, or nothing when no template has the key. From one
      minute on this is the reference wording of the days, hours and minutes:
      plural above one, zero amounts left out. */
  function ToString(u: int): (r: string)
    ensures u < 60 ==> r == "Less than one minute"
    ensures u >= 60 ==> r == Describe(Decompose(u).0, Decompose(u).1, Decompose(u).2)
  {
    if u < 60 then "Less than one minute"
    else
      var (d, h, m) := Decompose(u);
      TemplateWording(d, h, m);
      match FindTemplate(Key(d, h, m), 0)
      case None => ""
      case Some(ps) => Fill(Format(ps), Values(d, h, m))
  }

  /** An amount with its unit, plural above one. */
  function Quantity(n: nat, unit: string): string {
    NatToString(n) + " " + unit + (if n > 1 then "s" else "")
  }

  /** An English list: "a", "a and b", "a, b and c". */
  function Join(parts: seq<string>): string
    decreases |parts|
  {
    if |parts| == 0 then ""
    else if |parts| == 1 then parts[0]
    else if |parts| == 2 then parts[0] + " and " + parts[1]
    else parts[0] + ", " + Join(parts[1..])
  }

  /** Reference wording: the non-zero amounts of days, hours and minutes, listed. */
  function Describe(d: nat, h: nat, m: nat): string {
    Join((if d > 0 then [Quantity(d, "day")] else []) +
         (if h > 0 then [Quantity(h, "hour")] else []) +
         (if m > 0 then [Quantity(m, "minute")] else []))
  }

  // Rendering pieces

  lemma {:induction false} RenderSplit(ps: seq<Piece>, j: nat, vals: seq<string>)
    requires j < |ps|
    ensures Render(ps, vals) == Render(ps[..j], vals) + PieceText(ps[j], vals) + Render(ps[j + 1..], vals)
    decreases j
  {
    if j == 0 {
      assert ps[..0] == [];
    } else {
      RenderSplit(ps[1..], j - 1, vals);
      assert ps[1..][..j - 1] == ps[..j][1..];
      assert ps[1..][j - 1] == ps[j];
      assert ps[1..][j..] == ps[j + 1..];
    }
  }

  /** The text depends only on the values of the slots that occur. */
  lemma {:induction false} RenderAgree(ps: seq<Piece>, v: seq<string>, w: seq<string>)
    requires |v| == |w|
    requires forall j | 0 <= j < |ps| :: ps[j].Slot? && ps[j].tag < |v| ==> v[ps[j].tag] == w[ps[j].tag]
    ensures Render(ps, v) == Render(ps, w)
    decreases |ps|
  {
    if |ps| > 0 {
      RenderAgree(ps[1..], v, w);
    }
  }

  lemma BraceFreeConcat(a: string, b: string)
    requires BraceFree(a) && BraceFree(b)
    ensures BraceFree(a + b)
  {
    assert forall i | 0 <= i < |a + b| :: (a + b)[i] == if i < |a| then a[i] else b[i - |a|];
  }

  /** Brace-free literals and brace-free values make brace-free text. */
  lemma {:induction false} RenderBraceFree(ps: seq<Piece>, vals: seq<string>)
    requires forall j | 0 <= j < |ps| :: ps[j].Lit? ==> BraceFree(ps[j].text)
    requires forall j | 0 <= j < |ps| :: ps[j].Slot? && ps[j].tag < |vals| ==> BraceFree(vals[ps[j].tag])
    ensures BraceFree(Render(ps, vals))
    decreases |ps|
  {
    if |ps| > 0 {
      RenderBraceFree(ps[1..], vals);
      BraceFreeConcat(PieceText(ps[0], vals), Render(ps[1..], vals));
    }
  }

  /** No brace in `s` opens the placeholder whose second character is `c`. */
  predicate NoTagStart(s: string, c: char) {
    forall j | 0 <= j < |s| && s[j] == '{' :: j + 1 < |s| && s[j + 1] != c
  }

  lemma NoTagStartConcat(a: string, b: string, c: char)
    requires NoTagStart(a, c) && NoTagStart(b, c)
    ensures NoTagStart(a + b, c)
  {
    forall j | 0 <= j < |a + b| && (a + b)[j] == '{'
      ensures j + 1 < |a + b| && (a + b)[j + 1] != c
    {
      if j < |a| {
        assert a[j] == '{';
      } else {
        assert b[j - |a|] == '{';
      }
    }
  }

  /** Text made of pieces none of which opens placeholder `c` does not open it. */
  lemma {:induction false} RenderNoTagStart(ps: seq<Piece>, vals: seq<string>, c: char)
    requires forall j | 0 <= j < |ps| :: ps[j].Lit? ==> BraceFree(ps[j].text)
    requires forall j | 0 <= j < |ps| :: ps[j].Slot? && ps[j].tag < |vals| ==> NoTagStart(vals[ps[j].tag], c)
    ensures NoTagStart(Render(ps, vals), c)
    decreases |ps|
  {
    if |ps| > 0 {
      RenderNoTagStart(ps[1..], vals, c);
      var t := PieceText(ps[0], vals);
      if ps[0].Lit? || ps[0].tag >= |vals| {
        assert BraceFree(t);
      }
      NoTagStartConcat(t, Render(ps[1..], vals), c);
    }
  }

  /** A placeholder that is never opened is not found, so it is not replaced. */
  lemma NoTagNoReplace(s: string, t: string, x: string)
    requires |t| == 3 && t[0] == '{' && NoTagStart(s, t[1])
    ensures ReplaceFirst(s, t, x) == s
  {
    forall j: nat | j + |t| <= |s|
      ensures !OccursAt(s, t, j)
    {
      assert s[j..j + |t|][0] == s[j] && s[j..j + |t|][1] == s[j + 1];
    }
  }

  /** A placeholder does not open a different one. */
  lemma TagsDistinct(k: nat, i: nat)
    requires k < |Tags| && i < |Tags| && k != i
    ensures |Tags[i]| == 3 && Tags[i][0] == '{'
    ensures NoTagStart(Tags[k], Tags[i][1])
  {
    var t := Tags[k];
    assert t[1] != '{' && t[2] != '{';
  }

  // The fill loop

  /** The values before step `i` of the loop: replaced ones for the tags
      already handled, the placeholders themselves for the others. */
  function Mixed(vals: seq<string>, i: nat): (r: seq<string>)
    requires |vals| == |Tags|
    ensures |r| == |Tags|
    ensures forall k | 0 <= k < |Tags| :: r[k] == if k < i then vals[k] else Tags[k]
  {
    seq(|Tags|, k requires 0 <= k < |Tags| => if k < i then vals[k] else Tags[k])
  }

  /** Replacing a placeholder that occurs in the template: the text before it is
      already filled and brace-free, so its first occurrence is the slot. */
  lemma ReplacePresent(ps: seq<Piece>, vals: seq<string>, i: nat, j: nat)
    requires WellFormed(ps) && |vals| == |Tags| && i < |Tags|
    requires forall k | 0 <= k < |vals| :: BraceFree(vals[k])
    requires j < |ps| && ps[j] == Slot(i)
    ensures ReplaceFirst(Render(ps, Mixed(vals, i)), Tags[i], vals[i]) == Render(ps, Mixed(vals, i + 1))
  {
    var before := Mixed(vals, i);
    var after := Mixed(vals, i + 1);
    var a := Render(ps[..j], before);
    var b := Render(ps[j + 1..], before);
    PrefixFilled(ps, vals, i, j);
    SuffixOpen(ps, vals, i, j);
    RenderSplit(ps, j, before);
    RenderSplit(ps, j, after);
    TagShape(i);
    ReplaceBetween(Render(ps, before), a, Tags[i], b, vals[i], Render(ps, after));
  }

  /** Before the slot of tag `i` every slot is of an earlier tag, already
      filled: the text there is brace-free and no longer changes. */
  lemma PrefixFilled(ps: seq<Piece>, vals: seq<string>, i: nat, j: nat)
    requires WellFormed(ps) && |vals| == |Tags| && i < |Tags|
    requires forall k | 0 <= k < |vals| :: BraceFree(vals[k])
    requires j < |ps| && ps[j] == Slot(i)
    ensures BraceFree(Render(ps[..j], Mixed(vals, i)))
    ensures Render(ps[..j], Mixed(vals, i)) == Render(ps[..j], Mixed(vals, i + 1))
  {
    var pre := ps[..j];
    var before := Mixed(vals, i);
    var after := Mixed(vals, i + 1);
    forall k | 0 <= k < |pre|
      ensures pre[k].Lit? ==> BraceFree(pre[k].text)
      ensures pre[k].Slot? ==> pre[k].tag < i && before[pre[k].tag] == vals[pre[k].tag] == after[pre[k].tag]
    {
      assert pre[k] == ps[k];
    }
    RenderBraceFree(pre, before);
    RenderAgree(pre, before, after);
  }

  /** After the slot of tag `i` every slot is of a later tag, still open: the
      text there does not change at this step. */
  lemma SuffixOpen(ps: seq<Piece>, vals: seq<string>, i: nat, j: nat)
    requires WellFormed(ps) && |vals| == |Tags| && i < |Tags|
    requires j < |ps| && ps[j] == Slot(i)
    ensures Render(ps[j + 1..], Mixed(vals, i)) == Render(ps[j + 1..], Mixed(vals, i + 1))
  {
    var post := ps[j + 1..];
    var before := Mixed(vals, i);
    var after := Mixed(vals, i + 1);
    forall k | 0 <= k < |post| && post[k].Slot?
      ensures i < post[k].tag < |Tags| && before[post[k].tag] == Tags[post[k].tag] == after[post[k].tag]
    {
      assert post[k] == ps[j + 1 + k];
    }
    RenderAgree(post, before, after);
  }

  lemma TagShape(i: nat)
    requires i < |Tags|
    ensures |Tags[i]| == 3 && Tags[i][0] == '{'
  {
  }

  /** `ReplaceAfterBraceFree` for texts given by name. */
  lemma ReplaceBetween(s: string, a: string, t: string, b: string, x: string, r: string)
    requires s == a + t + b && r == a + x + b
    requires BraceFree(a) && |t| > 0 && t[0] == '{'
    ensures ReplaceFirst(s, t, x) == r
  {
    ReplaceAfterBraceFree(a, t, b, x);
  }

  /** Replacing a placeholder the template lacks: nothing in the text opens it. */
  lemma ReplaceMissing(ps: seq<Piece>, vals: seq<string>, i: nat)
    requires WellFormed(ps) && |vals| == |Tags| && i < |Tags|
    requires forall k | 0 <= k < |vals| :: BraceFree(vals[k])
    requires forall j | 0 <= j < |ps| :: ps[j] != Slot(i)
    ensures ReplaceFirst(Render(ps, Mixed(vals, i)), Tags[i], vals[i]) == Render(ps, Mixed(vals, i + 1))
  {
    var before := Mixed(vals, i);
    var after := Mixed(vals, i + 1);
    var s := Render(ps, before);
    TagShape(i);
    assert NoTagStart(s, Tags[i][1]) by {
      forall j | 0 <= j < |ps| && ps[j].Slot? && ps[j].tag < |before|
        ensures NoTagStart(before[ps[j].tag], Tags[i][1])
      {
        var k := ps[j].tag;
        if k < i {
          assert BraceFree(vals[k]);
        } else {
          TagsDistinct(k, i);
        }
      }
      RenderNoTagStart(ps, before, Tags[i][1]);
    }
    assert s == Render(ps, after) by {
      RenderAgree(ps, before, after);
    }
    NoTagNoReplace(s, Tags[i], vals[i]);
  }

  /** The loop fills a well-formed template: every placeholder ends up replaced
      by its value. */
  lemma {:induction false} FillFromRender(ps: seq<Piece>, vals: seq<string>, i: nat)
    requires WellFormed(ps) && |vals| == |Tags| && i <= |Tags|
    requires forall k | 0 <= k < |vals| :: BraceFree(vals[k])
    ensures FillFrom(Render(ps, Mixed(vals, i)), vals, i) == Render(ps, vals)
    decreases |Tags| - i
  {
    if i == |Tags| {
      assert Mixed(vals, i) == vals;
    } else {
      if j :| 0 <= j < |ps| && ps[j] == Slot(i) {
        ReplacePresent(ps, vals, i, j);
      } else {
        ReplaceMissing(ps, vals, i);
      }
      FillFromRender(ps, vals, i + 1);
    }
  }

  /** Filling a well-formed template yields its pieces with the values in
      place of the placeholders. */
  lemma FillRender(ps: seq<Piece>, vals: seq<string>)
    requires WellFormed(ps) && |vals| == |Tags|
    requires forall k | 0 <= k < |vals| :: BraceFree(vals[k])
    ensures Fill(Format(ps), vals) == Render(ps, vals)
  {
    assert Mixed(vals, 0) == Tags;
    FillFromRender(ps, vals, 0);
  }

  // The wording

  lemma ValuesBraceFree(d: nat, h: nat, m: nat)
    ensures forall k | 0 <= k < |Tags| :: BraceFree(Values(d, h, m)[k])
  {
    DigitsAreBraceFree(NatToString(d));
    DigitsAreBraceFree(NatToString(h));
    DigitsAreBraceFree(NatToString(m));
  }

  /** Template shape checked piece by piece: brace-free literals, and slots
      below `|Tags|` in increasing order, none below `least`. */
  predicate Ascending(ps: seq<Piece>, least: nat)
    decreases |ps|
  {
    |ps| == 0 ||
    match ps[0]
    case Lit(t) => BraceFree(t) && Ascending(ps[1..], least)
    case Slot(k) => least <= k < |Tags| && Ascending(ps[1..], k + 1)
  }

  lemma {:induction false} AscendingWellFormed(ps: seq<Piece>, least: nat)
    requires Ascending(ps, least)
    ensures WellFormed(ps)
    ensures forall j | 0 <= j < |ps| && ps[j].Slot? :: least <= ps[j].tag
    decreases |ps|
  {
    if |ps| > 0 {
      var rest := ps[1..];
      var next := if ps[0].Slot? then ps[0].tag + 1 else least;
      AscendingWellFormed(rest, next);
      assert forall j | 1 <= j < |ps| :: ps[j] == rest[j - 1];
    }
  }

  /** The bound the slots after `ps` must respect. */
  function After(ps: seq<Piece>, least: nat): nat
    decreases |ps|
  {
    if |ps| == 0 then least
    else After(ps[1..], if ps[0].Slot? then ps[0].tag + 1 else least)
  }

  lemma {:induction false} AscendingAppend(a: seq<Piece>, b: seq<Piece>, least: nat)
    requires Ascending(a, least) && Ascending(b, After(a, least))
    ensures Ascending(a + b, least) && After(a + b, least) == After(b, After(a, least))
    decreases |a|
  {
    if |a| == 0 {
      assert a + b == b;
    } else {
      assert (a + b)[0] == a[0];
      assert (a + b)[1..] == a[1..] + b;
      AscendingAppend(a[1..], b, if a[0].Slot? then a[0].tag + 1 else least);
    }
  }

  /** The amount templates and the joining literals, checked. */
  lemma PartsAscending()
    ensures Ascending(DayPart, 0) && After(DayPart, 0) == 2
    ensures Ascending(HourPart, 0) && After(HourPart, 0) == 4
    ensures Ascending(HourPart, 2) && After(HourPart, 2) == 4
    ensures Ascending(MinutePart, 2) && Ascending(MinutePart, 4)
    ensures forall m: nat :: Ascending([Lit(" and ")], m) && After([Lit(" and ")], m) == m
    ensures forall m: nat :: Ascending([Lit(", ")], m) && After([Lit(", ")], m) == m
  {
    assert [Lit(" and ")][1..] == [];
    assert [Lit(", ")][1..] == [];
    assert DayPart[1..] == [Lit(" "), Slot(1)] && DayPart[1..][1..] == [Slot(1)] && DayPart[1..][1..][1..] == [];
    assert HourPart[1..] == [Lit(" "), Slot(3)] && HourPart[1..][1..] == [Slot(3)] && HourPart[1..][1..][1..] == [];
    assert MinutePart[1..] == [Lit(" "), Slot(5)] && MinutePart[1..][1..] == [Slot(5)] && MinutePart[1..][1..][1..] == [];
  }

  /** Every template of the table is well formed. */
  lemma TemplatesWellFormed(ix: nat)
    requires ix < |Templates|
    ensures WellFormed(Templates[ix].1)
  {
    PartsAscending();
    var and := [Lit(" and ")];
    var ps := Templates[ix].1;
    if ix == 0 || ix == 1 || ix == 3 {
      assert Ascending(ps, 0);
    } else if ix == 2 {
      AscendingAppend(DayPart, and, 0);
      AscendingAppend(DayPart + and, HourPart, 0);
    } else if ix == 4 {
      AscendingAppend(DayPart, and, 0);
      AscendingAppend(DayPart + and, MinutePart, 0);
    } else if ix == 5 {
      AscendingAppend(HourPart, and, 0);
      AscendingAppend(HourPart + and, MinutePart, 0);
    } else {
      var comma := [Lit(", ")];
      AscendingAppend(DayPart, comma, 0);
      AscendingAppend(DayPart + comma, HourPart, 0);
      AscendingAppend(DayPart + comma + HourPart, and, 0);
      AscendingAppend(DayPart + comma + HourPart + and, MinutePart, 0);
    }
    assert Ascending(ps, 0);
    AscendingWellFormed(ps, 0);
  }

  /** The key of non-zero amounts finds the template at that position. */
  lemma FindKey(key: nat)
    requires 1 <= key <= 7
    ensures FindTemplate(key, 0) == Some(Templates[key - 1].1)
  {
    if key == 1 {
    } else if key == 2 {
    } else if key == 3 {
    } else if key == 4 {
    } else if key == 5 {
    } else if key == 6 {
    } else {
    }
  }

  /** One amount: the template says the amount with its unit. */
  lemma WordingOne(d: nat, h: nat, m: nat)
    requires Key(d, h, m) in {1, 2, 4}
    ensures Render(Templates[Key(d, h, m) - 1].1, Values(d, h, m)) == Describe(d, h, m)
  {
    Quantities(d, h, m);
  }

  /** Each amount template, filled, is the amount with its unit. */
  lemma Quantities(d: nat, h: nat, m: nat)
    ensures Render(DayPart, Values(d, h, m)) == Quantity(d, "day")
    ensures Render(HourPart, Values(d, h, m)) == Quantity(h, "hour")
    ensures Render(MinutePart, Values(d, h, m)) == Quantity(m, "minute")
  {
    PartTexts(Values(d, h, m));
    assert "day" + "s" == "days" && "day" + "" == "day";
    assert "hour" + "s" == "hours" && "hour" + "" == "hour";
    assert "minute" + "s" == "minutes" && "minute" + "" == "minute";
  }

  /** Two amounts: joined by " and ". */
  lemma WordingTwo(d: nat, h: nat, m: nat)
    requires Key(d, h, m) in {3, 5, 6}
    ensures Render(Templates[Key(d, h, m) - 1].1, Values(d, h, m)) == Describe(d, h, m)
  {
    var v := Values(d, h, m);
    Quantities(d, h, m);
    var qd, qh, qm := Quantity(d, "day"), Quantity(h, "hour"), Quantity(m, "minute");
    if d == 0 {
      assert Templates[Key(d, h, m) - 1].1 == HourPart + [Lit(" and ")] + MinutePart;
      PairText(HourPart, MinutePart, v);
      assert Describe(d, h, m) == Join([qh, qm]) by {
        assert [] + [qh] + [qm] == [qh, qm];
      }
    } else if h == 0 {
      assert Templates[Key(d, h, m) - 1].1 == DayPart + [Lit(" and ")] + MinutePart;
      PairText(DayPart, MinutePart, v);
      assert Describe(d, h, m) == Join([qd, qm]) by {
        assert [qd] + [] + [qm] == [qd, qm];
      }
    } else {
      assert Templates[Key(d, h, m) - 1].1 == DayPart + [Lit(" and ")] + HourPart;
      PairText(DayPart, HourPart, v);
      assert Describe(d, h, m) == Join([qd, qh]) by {
        assert [qd] + [qh] + [] == [qd, qh];
      }
    }
  }

  /** Three amounts: "a, b and c". */
  lemma WordingThree(d: nat, h: nat, m: nat)
    requires Key(d, h, m) == 7
    ensures Render(Templates[6].1, Values(d, h, m)) == Describe(d, h, m)
  {
    var v := Values(d, h, m);
    Quantities(d, h, m);
    TripleText(DayPart, HourPart, MinutePart, v);
    var qd, qh, qm := Quantity(d, "day"), Quantity(h, "hour"), Quantity(m, "minute");
    assert d > 0 && h > 0 && m > 0;
    assert Describe(d, h, m) == Join([qd] + [qh] + [qm]);
    JoinThree(qd, qh, qm);
  }

  /** Every non-zero key finds its template, and filling it with the values
      gives the reference wording. */
  lemma TemplateWording(d: nat, h: nat, m: nat)
    requires Key(d, h, m) > 0
    ensures FindTemplate(Key(d, h, m), 0) == Some(Templates[Key(d, h, m) - 1].1)
    ensures Fill(Format(Templates[Key(d, h, m) - 1].1), Values(d, h, m)) == Describe(d, h, m)
  {
    var key := Key(d, h, m);
    FindKey(key);
    TemplatesWellFormed(key - 1);
    ValuesBraceFree(d, h, m);
    FillRender(Templates[key - 1].1, Values(d, h, m));
    if key in {1, 2, 4} {
      WordingOne(d, h, m);
    } else if key in {3, 5, 6} {
      WordingTwo(d, h, m);
    } else {
      WordingThree(d, h, m);
    }
  }

  /** One of each: "1 day, 1 hour and 1 minute", all singular. */
  lemma ExampleOneOfEach(u: int)
    requires u == 86400 + 3600 + 60 + 1
    ensures ToString(u) == "1 day, 1 hour and 1 minute"
  {
    assert Decompose(u) == (1, 1, 1);
    DescribeOneOfEach();
  }

  lemma DescribeOneOfEach()
    ensures Describe(1, 1, 1) == "1 day, 1 hour and 1 minute"
  {
    var qd, qh, qm := Quantity(1, "day"), Quantity(1, "hour"), Quantity(1, "minute");
    QuantityOne("day");
    QuantityOne("hour");
    QuantityOne("minute");
    JoinThree(qd, qh, qm);
    assert qd + ", " + qh + " and " + qm == "1 day" + ", " + "1 hour" + " and " + "1 minute";
  }

  lemma QuantityOne(unit: string)
    ensures Quantity(1, unit) == "1 " + unit
  {
    assert NatToString(1) == "1";
    assert unit + "" == unit;
  }

  lemma JoinThree(a: string, b: string, c: string)
    ensures Join([a] + [b] + [c]) == a + ", " + b + " and " + c
  {
    assert [a] + [b] + [c] == [a, b, c];
    assert [a, b, c][1..] == [b, c];
  }

  /** No days: "2 hours and 1 minute", the plural only where it is due. */
  lemma ExampleNoDays(u: int)
    requires u == 2 * 3600 + 60
    ensures ToString(u) == "2 hours and 1 minute"
  {
    assert Decompose(u) == (0, 2, 1);
    DescribeNoDays();
  }

  lemma DescribeNoDays()
    ensures Describe(0, 2, 1) == "2 hours and 1 minute"
  {
    assert NatToString(1) == "1" && NatToString(2) == "2";
    var qh, qm := Quantity(2, "hour"), Quantity(1, "minute");
    assert qh == "2 hours" && qm == "1 minute";
    assert Describe(0, 2, 1) == Join([qh, qm]) by {
      assert [] + [qh] + [qm] == [qh, qm];
    }
  }

  /** `stateFromValue`: the system call can fail; otherwise the first of the
      agent's states whose range holds the uptime, or `None` for the
      framework's default state. */
  function StateFromValue(states: seq<State<int>>, compare: (int, int, int) -> bool, uptime: Option<int>): (r: Result<Option<nat>>)
    ensures r.Err? <==> uptime.None?
    ensures r.Ok? && r.value.Some? ==> r.value.value < |states| && Holds(compare, states[r.value.value], uptime.value)
    ensures r.Ok? && r.value.Some? ==> forall k | 0 <= k < r.value.value :: !Holds(compare, states[k], uptime.value)
    ensures r.Ok? ==> (r.value.None? <==> forall k | 0 <= k < |states| :: !Holds(compare, states[k], uptime.value))
  {
    match uptime
    case None => Err("Cant get system information")
    case Some(u) => Ok(FirstMatch(states, compare, u, 0))
  }

  /** The state chosen is the one `set` would make active. */
  lemma StateFromValueIsSet(states: seq<State<int>>, compare: (int, int, int) -> bool, u: int)
    requires StateFromValue(states, compare, Some(u)).value.Some?
    ensures Set(Agent(states, None), compare, u).0.active == StateFromValue(states, compare, Some(u)).value
  {
  }

  /** `append_state`: states from the definition are consulted in the order they
      were added. */
  function AppendState(states: seq<State<int>>, st: State<int>): (r: seq<State<int>>)
    ensures |r| == |states| + 1 && r[|states|] == st
    ensures forall k | 0 <= k < |states| :: r[k] == states[k]
  {
    states + [st]
  }

  /** Appending a state never changes a choice already made by earlier states. */
  lemma AppendKeepsChoice(states: seq<State<int>>, st: State<int>, compare: (int, int, int) -> bool, u: int)
    requires StateFromValue(states, compare, Some(u)).value.Some?
    ensures StateFromValue(AppendState(states, st), compare, Some(u)) == StateFromValue(states, compare, Some(u))
  {
    var i := StateFromValue(states, compare, Some(u)).value.value;
    var r := StateFromValue(AppendState(states, st), compare, Some(u)).value;
    assert r.Some? && r.value <= i;
  }

  /** `refresh`: fails when the system call does, otherwise always reports an
      update. */
  function Refresh(sysinfoOk: bool): (r: Result<bool>)
    ensures r.Err? <==> !sysinfoOk
    ensures r.Ok? ==> r.value
  {
    if sysinfoOk then Ok(true) else Err("Cant get system information")
  }
}

=== FILE: word.dfy ===
/** Machine integer widths of the C++ types the counters are stored in. */
module Word {

  /** Number of values of `uint8_t`. */
  const U8: nat := 0x100
  /** Number of values of `unsigned short`. */
  const U16: nat := 0x1_0000
  /** Number of values of `unsigned int`. */
  const U32: nat := 0x1_0000_0000
  /** Number of values of `unsigned long` (and `unsigned long long`) on 64-bit Linux. */
  const U64: nat := 0x1_0000_0000_0000_0000

  type u8 = x: nat | x < U8
  type u16 = x: nat | x < U16
  type u32 = x: nat | x < U32
  type u64 = x: nat | x < U64

  /** Unsigned 64-bit subtraction: wraps around instead of going negative. */
  function Sub64(a: u64, b: u64): (r: u64)
    ensures (b + r) % U64 == a
    ensures a >= b ==> r == a - b
    ensures a < b ==> r == a - b + U64
  {
    (a - b) % U64
  }

  /** Unsigned 32-bit subtraction: wraps around instead of going negative. */
  function Sub32(a: u32, b: u32): (r: u32)
    ensures (b + r) % U32 == a
    ensures a >= b ==> r == a - b
    ensures a < b ==> r > 0
  {
    (a - b) % U32
  }

  /** `strtoul`/`strtoull` on a decimal value that does not fit: saturate at the maximum. */
  function Saturate64(v: nat): (r: u64)
    ensures v < U64 ==> r == v
    ensures v >= U64 ==> r == U64 - 1
  {
    if v < U64 then v else U64 - 1
  }

  /** Conversion to `unsigned short`: keeps the low sixteen bits. */
  function Trunc16(x: nat): (r: u16)
    ensures x < U16 ==> r == x
    ensures (x - r) % U16 == 0
  {
    x % U16
  }

  /** Euclidean remainders are unique, for the two counter widths. */
  lemma ModUnique(x: int, k: int, r: int, m: nat)
    requires m == U32 || m == U64
    requires 0 <= r < m && x == k * m + r
    ensures x % m == r
  {
    var k' := x / m;
    var r' := x % m;
    assert x == k' * m + r';
    assert (k - k') * m == r' - r;
    MultipleBound(k - k', m);
  }

  /** A nonzero multiple of `m` is at least `m` away from zero. */
  lemma MultipleBound(d: int, m: nat)
    ensures d >= 1 ==> d * m >= m
    ensures d <= -1 ==> d * m + m <= 0
  {
    if d >= 1 {
      assert d * m == (d - 1) * m + m;
    } else if d <= -1 {
      assert d * m == (d + 1) * m - m;
    }
  }

  /** Subtracting a multiple of the modulus does not change the remainder. */
  lemma ModShift(a: int, q: int, m: nat)
    requires m == U32 || m == U64
    ensures (a - q * m) % m == a % m
  {
    ModUnique(a - q * m, a / m - q, a % m, m);
  }

  /** Reducing an addend first does not change a sum's remainder, for the two
      counter widths. */
  lemma ModAddLeft(a: nat, b: nat, m: nat)
    requires m == U32 || m == U64
    ensures (a % m + b) % m == (a + b) % m
  {
    var q := a / m;
    assert a % m + b == a + b - q * m;
    ModShift(a + b, q, m);
  }
}

=== FILE: wrappers.dfy ===
/** Failure-carrying results used wherever the C++ code throws or may find nothing. */
module Wrappers {

  /** An optional value: `None` where the code has nothing to return. */
  datatype Option<+T> = None | Some(value: T)

  /** A value or the message of the exception the C++ code would throw. */
  datatype Result<+T> = Ok(value: T) | Err(error: string) {

    predicate IsFailure() {
      Err?
    }

    function PropagateFailure<U>(): Result<U>
      requires Err?
    {
      Err(error)
    }

    function Extract(): T
      requires Ok?
    {
      value
    }
  }
}
